=== FILE: README.md ===
# resynchronize: the async-request state engine, modelled in Dafny

resynchronize is a Redux helper library. It tracks one asynchronous operation per
*store key* and has two sides.

- **Write side.** `createAsyncActions(k)` builds six action creators, one per stage:
  start, progress, done, error, cancel and reset. The type of each is the upper-cased
  stage name, `_` and `k` (`START_LIST`, ...). `createAsyncReducer(initialPayload,
  payloadHandlers, errorHandlers)` normalises the handler arguments and validates the
  hook configurations. It then assembles one flat table from action type to node
  transition. Each transition sets a status fixed by its stage. It computes the payload
  and the error with the hook the user configured for that stage, or with the stage's
  default.
- **Read side.** The predicates `isLoading`, `isDone`, `isCancelled` and `hasError`,
  with `getPayload` and `getError`, read a state node `{status, payload, error}`.
  `getAsyncProperties` packs them into a props record. `getGetterAsyncProps` selects
  nodes from the store state through a `getter` and fuses each record with the
  component's own prop.

The modules follow the library's files:

| file | module | what it holds |
|---|---|---|
| `values.dfy` | `JsValues` | JS values and truthiness (`\|\|`, default parameters), `Option`/`Result`, objects as property-assignment logs (`Object.keys`, property read, `Set` de-duplication) |
| `utils.dfy` | `Utils` | status constants, `get`, the predicates, `getStateShape`, action creators, `createReducer` and dispatch |
| `async_actions.dfy` | `AsyncActionSets` | stages, `getAsyncKeys`, action sets, `isAsyncActions`, the parse of a type back into (stage, store key) |
| `async_reducer.dfy` | `AsyncReducer` | field reducers, `getAsyncNodeReducer`, the six stage handlers, `createActionsHandler`, `checkProps`/`isValidConfig`, `formatHandler`, `mergeHandlers`, `createAsyncReducerConfig`, `createAsyncReducer` |
| `get_async_props.dfy` | `AsyncProps` | `getAsyncStatus`, `getAsyncProperties` |
| `get_getter_async_props.dfy` | `GetterAsyncProps` | `fuseProps`, `getAsyncKeys`, `getGetterAsyncProps` |
| `lifecycle.dfy` | `Lifecycle` | both sides together: the flags each stage leaves, and end-to-end scenarios |

## How JavaScript is represented

- **Values.** `Value` has the cases `Undefined | Null | Bool | Num | NaN | Str | Ref`.
  `Truthy` is JavaScript truthiness. `Or(a, b)` is `a || b`. `Default(v, d)` is a
  default parameter, which replaces only `undefined`.
- **Objects built from user input.** The handler objects are written as the sequence
  of their property assignments (`Entries`). `Keys` is `Object.keys`: first-assignment
  order, each name once. `Lookup` reads a property, and the last assignment wins.
  `FormatHandler`'s reduce and `createAsyncReducerConfig`'s spread both rely on this
  last-wins order.
- **Handler arguments.** A handler argument is a `Handler`: a primitive (any value
  but a reference), a function together with its own enumerable properties
  (`Func(hook, props)`), an action set, or a plain object. `isAsyncActions` tests the
  prototype, and here it tests the `ActionSet` case. A function is an `Object`
  instance, so `checkProps` reads its own properties just as it reads a plain
  object's. An action set's own properties are written out as well
  (`ActionSetProps`): a creator under each stage name, then `toString`. Each creator
  is a function whose own properties are `toString` and `type`.
- **Exceptions.** A thrown configuration `Error` is `Failure(ConfigError)`. A
  `TypeError` from calling a missing getter property is `Failure(key)`.
- **The reducer.** A reducer is its initial state and its table. `Dispatch` is the
  call `reducer(state, action)`: an omitted state or action is `None`. The default
  action `{}` has no type, and is looked up under the key `"undefined"`.

## Where the code and its tests or documentation disagree (the model follows the code)

- The start and progress status is `'STARTED'`. Some tests expect `'START'`.
- `isDone` holds for `DONE` and `ERROR`. The bundled build checks `DONE` only.
- Reset restores `initialPayload || null` and clears the error. One integration test
  expects reset to keep the finished payload (`Lifecycle.ScenarioResetAfterDone`).
- `isValidConfig` returns `false` for primitives; it never throws.
- `src/lib/integration.test.js` calls `createAsyncReducer(actions)` with one argument. In the code
  that leaves `payloadHandlers` undefined, so the call throws "The handler must be defined". The
  scenarios in `Lifecycle` model `createAsyncReducer(null, actions)` instead.
- `getError` on a node that has neither failed nor been cancelled is `false`, not
  `null` (`(status === ERROR || status === CANCELLED) && ...`).
- `hasError` is imported from `./utils` by `getAsyncProps.js`, but `src/lib/utils.js`
  does not export it. The model takes the bundled build's definition,
  `status === ERROR` (dist/bundle.js:31-33).
- The progress transition reads its error hook from the property `flush`.
  `isValidConfig` admits only stage names, so no configuration can supply `flush`.
  Every progress transition therefore clears the error
  (`AsyncReducer.ProgressErrorAlwaysCleared`). This holds for the stage list of the bundled
  build (dist/bundle.js:10-16), which has no `flush`. `src/lib/createAsyncReducer.test.js:116`
  expects `actions.flush`, which suggests another version of the list; with `flush` among the
  stages, a configuration could supply the progress error hook.
- `examples/connect.js` documents the `getter` prop as a function. A function is not an
  object, so `getAsyncKeys` gives `['asyncProp']` and the code calls `getter['asyncProp'](state)`,
  which throws unless the function carries an `asyncProp` property
  (`GetterAsyncProps.NonObjectGetterThrows`).

## Model

| member | source | states |
|---|---|---|
| JsValues.Or | src/lib/utils.js:8 | `a \|\| b` is `a` when `a` is truthy and `b` otherwise; the result is truthy exactly when one of them is |
| JsValues.Default | src/lib/utils.js:21 | a default parameter replaces `undefined` and no other value |
| JsValues.Dedupe | src/lib/createAsyncReducer.js:132-133 | `[...new Set(xs)]` holds each element of `xs` exactly once, nothing else, is no longer than `xs`, and is `xs` itself when `xs` has no repeats |
| JsValues.FirstIndex | src/lib/createAsyncReducer.js:132-133 | the position of the first occurrence: it holds the element, and no earlier position does |
| JsValues.DedupeKeepsFirstOccurrenceOrder | src/lib/createAsyncReducer.js:132-133 | `[...new Set(xs)]` lists its elements in the order of their first occurrence in `xs` |
| JsValues.Lookup | src/lib/createAsyncReducer.js:148-149 | reading a property finds a value exactly when the property was assigned, and the value is one that was assigned to it |
| JsValues.KeysAreLookupDomain | src/lib/createAsyncReducer.js:101 | `Object.keys` lists exactly the properties that read as defined |
| JsValues.LookupSeesLastAssignment | src/lib/createAsyncReducer.js:101-114 | a read sees the last assignment to that property |
| JsValues.LookupDistinct | src/lib/getGetterAsyncProps.js:31-36 | when every property is assigned once, each assignment is read back |
| Utils.Get | src/lib/utils.js:7-9 | a missing object gives the default; otherwise the property when truthy, else the default |
| Utils.IsDone | src/lib/utils.js:12 | done exactly when the node's status is `DONE` or `ERROR` |
| Utils.GetError | src/lib/utils.js:13-16 | `false` unless the status is `ERROR` or `CANCELLED`; then the error when truthy, else null |
| Utils.IsLoading | src/lib/utils.js:17 | loading exactly when the status is `STARTED` |
| Utils.IsCancelled | src/lib/utils.js:18 | cancelled exactly when the status is `CANCELLED` |
| Utils.HasError | dist/bundle.js:31-33 | failed exactly when the status is `ERROR` |
| Utils.GetPayload | src/lib/utils.js:19 | the payload when truthy, else null; null for a missing node |
| Utils.PredicatesExclusive | src/lib/utils.js:12-19 | loading, done and cancelled never hold together; an error implies done; a missing node satisfies no predicate and reads as a null payload and a `false` error |
| Utils.GetStateShape | src/lib/utils.js:21-23 | each given field is kept; an omitted status becomes `INITIAL` and an omitted payload or error becomes null, so no field is `undefined` |
| Utils.EmptyStateShape | src/lib/utils.js:21-23 | with every argument omitted the shape is the all-null node |
| Utils.ActionCreator.Call | src/lib/utils.js:30-32 | the action carries the creator's type and the payload, an omitted payload becoming null |
| Utils.CreateAction | src/lib/utils.js:34-39 | the creator carries the type as its `type` and as its string form |
| Utils.CreatorKeysItsActions | src/lib/utils.js:36-43 | an action the creator makes has the creator's string form as its type, so when a table holds an entry under that string, dispatching the action runs that entry on the state |
| Utils.Dispatch | src/lib/utils.js:41-44 | the table entry of the action's type is applied to the state (the initial state when none is given); an action with no entry returns the state; what this means for a whole table is stated by `Utils.DispatchOnlyOwnEntry`, `Utils.DispatchUnknownKeepsState` and `Utils.RunAppend` |
| Utils.DispatchOnlyOwnEntry | src/lib/utils.js:41-44 | replacing or adding a table entry under another type does not change a dispatch |
| Utils.DispatchUnknownKeepsState | src/lib/utils.js:41-44 | an unknown action type returns the given state, or the initial state when none is given |
| Utils.RunUnknownIsIdentity | src/lib/utils.js:41-44 | any run of actions the table does not know leaves the state unchanged |
| Utils.RunAppend | src/lib/utils.js:41-44 | dispatching `xs` then `ys` is dispatching `xs + ys` |
| AsyncActionSets.StageOfName | src/lib/createAsyncReducer.js:38 | a name denotes a stage exactly when it is in `AVAILABLE_ACTIONS`, and the stage's name is that name |
| AsyncActionSets.StageNamesListed | src/lib/createAsyncReducer.js:38 | every stage name is listed and reads back as its own stage |
| AsyncActionSets.Upper | src/lib/createAsyncActions.js:7 | on ASCII input, which the six stage names are, `toUpperCase` keeps the length, turns each of `a`-`z` into its capital and keeps every other character |
| AsyncActionSets.TagIsUpperName | src/lib/createAsyncActions.js:7 | each type's stage prefix is the upper-cased stage name |
| AsyncActionSets.PrefixesArePrefixFree | src/lib/createAsyncActions.js:7 | no string starts with the prefixes of two different stages |
| AsyncActionSets.ParseType | src/lib/createAsyncActions.js:4-12 | a parsed type is rebuilt from its (stage, store key); a type that does not parse carries no stage prefix |
| AsyncActionSets.ParseTypeRoundTrip | src/lib/createAsyncActions.js:4-12 | each type parses back to the stage and store key it was built from |
| AsyncActionSets.TypeOfInjective | src/lib/createAsyncActions.js:4-12 | a type determines its stage and store key |
| AsyncActionSets.TypeOfIn | src/lib/createAsyncActions.js:4-12 | a stage's type is among the six types of a store key exactly when it is that key |
| AsyncActionSets.TypesOfParse | src/lib/createAsyncActions.js:4-12 | a string is one of the types of `k` exactly when it parses to `k` |
| AsyncActionSets.TypesOfDisjoint | src/lib/createAsyncActions.js:4-12 | sets with different store keys share no type |
| AsyncActionSets.TypesOfAllParse | src/lib/createAsyncActions.js:4-12 | a string is a type of some key in a list exactly when it parses to a key in that list |
| AsyncActionSets.StageTypesDistinct | src/lib/createAsyncActions.js:4-12 | the six types of one store key are pairwise different |
| AsyncActionSets.GetAsyncKeys | src/lib/createAsyncActions.js:4-12 | the keys are exactly the stage names, each mapped to its upper-cased name, `_` and the store key |
| AsyncActionSets.GetAsyncKeysAt | src/lib/createAsyncActions.js:4-12 | each stage name maps to the stage's type; the store key itself is not upper-cased |
| AsyncActionSets.GetAsyncKeysDisplay | src/lib/createAsyncActions.js:4-12 | `getAsyncKeys(k)` is exactly the six stage names with their types |
| AsyncActionSets.CreateAsyncActions | src/lib/createAsyncActions.js:18-30 | the set's string form is its store key |
| AsyncActionSets.MembersCarryTheirTypes | src/lib/createAsyncActions.js:18-24 | each member's type and string form is the stage's entry of `getAsyncKeys` |
| AsyncActionSets.TypesCollisionFree | src/lib/createAsyncActions.js:18-30 | two members of action sets have the same type only when they are the same stage of the same store key |
| AsyncActionSets.IsAsyncActions | src/lib/createAsyncActions.js:37-38 | a handler passes exactly when it is an action set built by `createAsyncActions` |
| AsyncReducer.DefaultReducer | src/lib/createAsyncReducer.js:6 | a truthy action payload wins; otherwise the previous value, null when that is `undefined` |
| AsyncReducer.InitialValueReducer | src/lib/createAsyncReducer.js:8 | whatever the inputs, the initial value when truthy, else null |
| AsyncReducer.NullifierReducer | src/lib/createAsyncReducer.js:10 | whatever the inputs, the field becomes null |
| AsyncReducer.GetAsyncNodeReducer | src/lib/createAsyncReducer.js:19-30 | every node it produces carries the given status, its payload computed by the payload reducer from the old payload and its error by the error reducer from the old error; an omitted reducer is the default one |
| AsyncReducer.HandleStart | src/lib/createAsyncReducer.js:56-57 | status `STARTED`; the payload reducer defaults to the default reducer and the error reducer to the nullifier |
| AsyncReducer.HandleProgress | src/lib/createAsyncReducer.js:59-60 | status `STARTED`; the payload reducer defaults to the default reducer and the error reducer to the nullifier |
| AsyncReducer.HandleDone | src/lib/createAsyncReducer.js:62-63 | status `DONE`; the payload reducer defaults to the default reducer and the error reducer to the nullifier |
| AsyncReducer.HandleError | src/lib/createAsyncReducer.js:65-66 | status `ERROR`; the payload reducer defaults to the nullifier and the error reducer to the default reducer |
| AsyncReducer.HandleCancel | src/lib/createAsyncReducer.js:68-69 | status `CANCELLED`; the payload reducer defaults to the nullifier and the error reducer to the default reducer |
| AsyncReducer.HandleReset | src/lib/createAsyncReducer.js:72-74 | status `INITIAL`; the payload reducer defaults to the initial-value reducer and the error reducer to the nullifier |
| AsyncReducer.StageHandler | src/lib/createAsyncReducer.js:82-89 | the transition installed for a stage always sets that stage's status |
| AsyncReducer.CreateActionsHandler | src/lib/createAsyncReducer.js:82-89 | the table's keys are exactly the six types of the action map |
| AsyncReducer.StageHandlerResult | src/lib/createAsyncReducer.js:56-89 | each stage's handler sets the stage's status and computes each field with the stage's own hook when given, else with the stage's default; progress reads its error hook from `flush` |
| AsyncReducer.ActionsHandlerAt | src/lib/createAsyncReducer.js:82-89 | with distinct types, each stage's type is bound to that stage's handler, never overwritten by another stage |
| AsyncReducer.GetAsyncKeysStageTypes | src/lib/createAsyncActions.js:4-12 | `getAsyncKeys(k)` has all six stage names, with pairwise different types |
| AsyncReducer.ActionsHandlerStages | src/lib/createAsyncReducer.js:82-89 | the table built for store key `k` maps each stage's type to that stage's transition |
| AsyncReducer.StatusByStageAlone | src/lib/createAsyncReducer.js:56-74 | a transition's status depends on its stage alone, whatever the hooks, node and action |
| AsyncReducer.DefaultTransitions | src/lib/createAsyncReducer.js:6-74 | for any node, action and store key, without hooks, start/progress/done take a truthy payload (else keep the old one, an `undefined` old one reading as null) and clear the error; error/cancel clear the payload and take a truthy payload as the error (else keep the old one); reset restores a truthy initial payload (else null) and clears the error |
| AsyncReducer.PayloadHookReplacesOnlyPayload | src/lib/createAsyncReducer.js:56-89 | a payload hook changes only the payload of its stage's transition |
| AsyncReducer.ErrorHookReplacesOnlyError | src/lib/createAsyncReducer.js:82-89 | an error hook changes only the error of its stage's transition; progress takes it from `flush` |
| AsyncReducer.CheckProps | src/lib/createAsyncReducer.js:36-39 | an object with no own keys fails; one that passes binds only stage names, each to a function |
| AsyncReducer.IsValidConfig | src/lib/createAsyncReducer.js:36-48 | valid exactly for a function or plain object with at least one own key, every own key a stage name bound to a function; primitives are invalid, and an action set, checked on its own properties like any object, is invalid too |
| AsyncActionSets.ActionSetProps | src/lib/createAsyncActions.js:18-23 | an action set's own properties are seven functions: one under each stage name, then `toString` |
| AsyncReducer.ActionSetFailsCheck | src/lib/createAsyncReducer.js:36-39 | `checkProps` on an action set's own properties fails, because `toString` is an own key and no stage name |
| AsyncReducer.HooksOf | src/lib/createAsyncReducer.js:104-105 | the recorded hooks are exactly the function-valued properties, each with its value |
| AsyncReducer.ValidConfigHasNoFlush | src/lib/createAsyncReducer.js:36-48 | a valid configuration names only stages, so it never supplies `flush` |
| AsyncReducer.FormatMembers | src/lib/createAsyncReducer.js:101-114 | succeeds exactly when every member is an action set or a valid configuration, failing with the invalid-hooks error; on success each member is recorded in order under its target key with its hooks |
| AsyncReducer.FormattedAt | src/lib/createAsyncReducer.js:101-114 | the `i`-th formatted entry comes from the object's `i`-th own key, whose member was accepted |
| AsyncReducer.FormatObject | src/lib/createAsyncReducer.js:100-114 | formatting a plain object fails, always with the invalid-hooks error, exactly when one of its members is neither an action set nor a valid configuration |
| AsyncReducer.FormatHandler | src/lib/createAsyncReducer.js:95-122 | a falsy argument fails as undefined; a truthy primitive or a function fails as not an object; an object fails exactly when one member is neither accepted form; an action set is recorded under its store key with no hooks |
| AsyncReducer.FormatObjectMembers | src/lib/createAsyncReducer.js:101-114 | each member's hooks end up under its target key unless a later member has the same target |
| AsyncReducer.FormatSingleConfig | src/lib/createAsyncReducer.js:104-105 | `{[k]: m}`, with `m` valid, is recorded as `k` with `m`'s hooks |
| AsyncReducer.MergeHandlers | src/lib/createAsyncReducer.js:131-134 | the keys of both formatted maps, each exactly once, and nothing else |
| AsyncReducer.KeyHandlerKeys | src/lib/createAsyncReducer.js:146-159 | one key contributes exactly its six types |
| AsyncReducer.KeyHandlerDomain | src/lib/createAsyncReducer.js:146-159 | one key's contribution holds exactly the strings that parse to that key |
| AsyncReducer.BuildTable | src/lib/createAsyncReducer.js:146-162 | the table's keys are exactly the types of the merged keys |
| AsyncReducer.BuildTableDomain | src/lib/createAsyncReducer.js:146-162 | the table holds exactly the types that parse to one of the merged keys |
| AsyncReducer.BuildTableEntry | src/lib/createAsyncReducer.js:146-162 | every entry is the transition its own key contributed: keys never overwrite one another in the spread |
| AsyncReducer.ErrorArgument | src/lib/createAsyncReducer.js:142 | an omitted error argument becomes the empty object; any other is passed on unchanged |
| AsyncReducer.CreateAsyncReducerConfig | src/lib/createAsyncReducer.js:142-163 | a malformed payload argument is reported first, with its own error; otherwise a malformed error argument is reported with its error; it succeeds exactly when both arguments format; the table's keys are the types of the merged keys |
| AsyncReducer.ReducerConfigEntries | src/lib/createAsyncReducer.js:142-163 | each merged key's stage type runs that stage's transition with the key's own payload and error hooks |
| AsyncReducer.OmittedErrorHandlers | src/lib/createAsyncReducer.js:142 | an omitted error argument defaults to `{}`, which contributes nothing |
| AsyncReducer.SingleKeyReducer | src/lib/createAsyncReducer.js:131-175 | arguments formatting to one key build a reducer whose only key is that one, with its hooks |
| AsyncReducer.ProgressClearsError | src/lib/createAsyncReducer.js:59-60 | a progress transition clears the error whenever no `flush` error hook is given |
| AsyncReducer.ProgressErrorAlwaysCleared | src/lib/createAsyncReducer.js:36-89 | in any built table, every progress transition sets the error to null |
| AsyncReducer.FormattedHooksNameStages | src/lib/createAsyncReducer.js:95-122 | every hook a successful format records is under a stage name, never `flush` |
| AsyncReducer.MemberHooksNameStages | src/lib/createAsyncReducer.js:102-105 | an accepted member records hooks under stage names only, never `flush` |
| AsyncReducer.CreateAsyncReducer | src/lib/createAsyncReducer.js:171-175 | succeeds exactly when the configuration does; the initial state is `{status: null, payload: initialPayload (undefined as null), error: null}`; the reducer's table is the configuration's table |
| AsyncReducer.BuiltReducerPassesForeignActions | src/lib/createAsyncReducer.js:171-175 | the built table holds an action's type exactly when the type parses to a merged key; any other action returns the given state, or the initial one |
| AsyncReducer.ReducerDispatchesStage | src/lib/createAsyncReducer.js:171-175 | dispatching a merged key's stage action runs that stage's transition with the key's hooks on the given or the initial state |
| AsyncProps.GetAsyncStatus | src/lib/getAsyncProps.js:14-19 | loading, done, cancel and error each hold exactly for their statuses (done for `DONE` or `ERROR`) |
| AsyncProps.GetAsyncProperties | src/lib/getAsyncProps.js:25-29 | the status flags, the truthy payload or null, and the error as `getError` gives it |
| AsyncProps.MissingNodeProps | src/lib/getAsyncProps.js:25-29 | a missing node gives no flag, a null payload and a `false` error |
| AsyncProps.StatusFlagsConsistent | src/lib/getAsyncProps.js:14-19 | at most one of loading, done and cancel holds, and error implies done |
| AsyncProps.ErrorFalseUnlessFailed | src/lib/getAsyncProps.js:25-29 | the error prop is `false` exactly when the node has neither failed nor been cancelled |
| GetterAsyncProps.FuseProps | src/lib/getGetterAsyncProps.js:8-19 | only an `undefined` own prop is dropped; otherwise `{own, connected}` |
| GetterAsyncProps.GetAsyncKeys | src/lib/getGetterAsyncProps.js:21-24 | an object getter gives its own keys, each once; anything else gives `['asyncProp']` |
| GetterAsyncProps.FuseAll | src/lib/getGetterAsyncProps.js:31-36 | succeeds exactly when every key names a function, assigning each key's fused props in key order; otherwise fails at the first key that does not |
| GetterAsyncProps.FuseEach | src/lib/getGetterAsyncProps.js:31-36 | when every key can be called, one entry per key in key order, each holding that key's fused props |
| GetterAsyncProps.FirstUncallableKey | src/lib/getGetterAsyncProps.js:31-34 | when some key cannot be called, the first such key in the loop's order |
| GetterAsyncProps.GetGetterAsyncProps | src/lib/getGetterAsyncProps.js:26-39 | the result has exactly the getter's keys, each holding the selected node's props fused with the own prop; it throws at the first key that cannot be called |
| GetterAsyncProps.GetterPropsAt | src/lib/getGetterAsyncProps.js:31-38 | when every key of the getter can be called, the call succeeds and reading the result under a key gives that key's fused props |
| GetterAsyncProps.EmptyGetterEmptyProps | src/lib/getGetterAsyncProps.js:26-39 | an empty getter object connects nothing |
| GetterAsyncProps.NonObjectGetterThrows | src/lib/getGetterAsyncProps.js:21-24 | a getter that is not an object and has no `asyncProp` property is read under `asyncProp` and throws there |
| Lifecycle.StageFlags | src/lib/getAsyncProps.js:14-19 | whatever the hooks, start and progress read as loading, done as done, error as done with an error, cancel as cancelled, reset as nothing |
| Lifecycle.NoErrorHooksWhenOmitted | src/lib/createAsyncReducer.js:142 | omitting the error handlers, or passing `{}`, contributes no error hooks |
| Lifecycle.OneKeyStage | src/lib/createAsyncReducer.js:142-175 | a payload argument formatting to one key with its hooks builds a reducer that runs each stage of that key with those hooks |
| Lifecycle.SetReducerStage | src/lib/createAsyncReducer.js:171-175 | a reducer built from one bare action set runs each stage's hook-free transition |
| Lifecycle.ScenarioStart | src/lib/integration.test.js:9-15 | starting from the initial state gives `{status: 'STARTED', payload: null, error: null}` |
| Lifecycle.ScenarioDone | src/lib/integration.test.js:17-23 | finishing with a truthy payload gives `{status: 'DONE', payload, error: null}`, which reads as done and not failed, with that payload and a `false` error |
| Lifecycle.ScenarioError | src/lib/integration.test.js:25-31 | failing with a truthy error gives the node `{status: 'ERROR', payload: null, error: e}`, which reads as failed and done, with a null payload and that error |
| Lifecycle.ResetClearsEverything | src/lib/integration.test.js:33-58 | with a null initial payload, resetting any state gives the all-null node |
| Lifecycle.ScenarioResetAfterDone | src/lib/integration.test.js:42-49 | resetting after done gives the all-null node, not the finished payload |
| Lifecycle.OneHookConfig | src/lib/createAsyncReducer.js:36-48 | `{[stage]: f}` is valid and records exactly `f` |
| Lifecycle.SingleHookValid | src/lib/createAsyncReducer.js:36-48 | a one-hook configuration under a stage's name is valid and records exactly that hook |
| Lifecycle.FunctionConfigAccepted | src/lib/createAsyncReducer.js:36-48 | a function carrying a stage-named hook property is a valid configuration and is recorded with that hook |
| Lifecycle.HookedSetStage | src/lib/createAsyncReducer.js:82-89 | with `{[k]: {[stage]: f}}`, dispatching that stage runs its transition with `f` as the payload hook |
| Lifecycle.HookedSetPayload | src/lib/createAsyncReducer.js:56-89 | with `{[k]: {[stage]: f}}`, the payload after that stage's first action is `f`'s result on the null initial payload |
| Lifecycle.ScenarioDoneHook | src/lib/createAsyncReducer.js:62-63 | a done hook computes the stored payload |
| Lifecycle.TwoSetsFormatted | src/lib/createAsyncReducer.js:101-103 | two action sets in one object are recorded under their store keys, with no hooks |
| Lifecycle.TwoKeysMerged | src/lib/createAsyncReducer.js:131-134 | two different hook-free keys merge to themselves, in order |
| Lifecycle.ScenarioTwoSets | src/lib/createAsyncReducer.js:142-163 | two sets with different keys fill the table with both sets' types, share none, and each set's actions drive their own transitions |

## Left out

- `AsyncActionSets.Upper`: upper-cases ASCII letters only, whereas JavaScript's `toUpperCase` also maps other letters (`é` to `É`) and can change the length (`ß` to `SS`). The code upper-cases only the six ASCII stage names, where the two agree.
- `Num` is a real number. NaN is a separate value. Floating-point arithmetic is not needed: no operation computes on numbers.
- Prototype-inherited properties are not modelled. For example, `createReducer`'s `typeof actionMap[action.type] === 'function'` would find `toString` or `constructor` on a table. Tables are modelled as their own keys only.
- `Object.keys` puts integer-like keys first, in numeric order. The model keeps plain assignment order.
- `AsyncReducer.ProgressErrorAlwaysCleared`: holds only for the bundled stage list, which has no `flush`; it is not promised for a list that contains `flush`.
- `AsyncReducer.Message`: models the three error texts, without the surrounding whitespace of the template literal. No property about the text is stated; the error is told apart by its `ConfigError` case.
- `GetterAsyncProps.FuseAll`: the `TypeError` thrown for a missing or non-function getter property is modelled as the failing key, not as the engine's message.
- A hook that throws is not modelled. Hooks are total functions to values; a hook may return `undefined`, which the default reducer later reads as null.
- `Utils.Dispatch`: a `null` state, which throws at `state.payload` (src/lib/createAsyncReducer.js:28), and a `null` action, which throws at `action.type` (src/lib/utils.js:42), are not modelled. `None` stands only for an omitted argument.
- A `getter` object that has a key named `getter`, colliding with `props.getter`, is not modelled: the getter is a separate argument.
- `Utils.Dispatch`: a table entry that is not a function is not modelled. Every table this library builds holds functions only.
- `src/lib/consts.js` is not part of this model. `AVAILABLE_ACTIONS` (start, progress, done, error, cancel, reset, in that order) and the status strings `'STARTED'`, `'DONE'`, `'ERROR'` and `'CANCELLED'` are taken from the bundled build, dist/bundle.js:5-16. The bundle is an older build, so these constants may differ from the ones `src/lib` imports.
- The React connection (`connect`, `mapStateToProps`), the `dist/` bundle, the `lib/` build and the documentation site are outside the modelled core. From the bundle, only its constants (dist/bundle.js:5-16) and `hasError` (dist/bundle.js:31-33) are used.
- `Lifecycle` scenarios fix the error-handler argument only through `NoErrorHooks`, not to a literal. Omitting it is one instance, shown by `Lifecycle.NoErrorHooksWhenOmitted`.

=== FILE: async_actions.dfy ===
/**
 * Action sets: for a store key `k`, six action creators whose types are the
 * upper-cased stage name, an underscore, and `k`. The stage prefixes are
 * prefix-free, so a type names exactly one (stage, store key) pair.
 */
module AsyncActionSets {
  import opened JsValues
  import opened Utils

  /** The lifecycle stages of one tracked operation. */
  datatype Stage = Start | Progress | Done | Error | Cancel | Reset

  /** The stage names, in the order the library lists them. */
  const AVAILABLE_ACTIONS: seq<string> := ["start", "progress", "done", "error", "cancel", "reset"]

  function StageName(s: Stage): string {
    match s
    case Start => "start"
    case Progress => "progress"
    case Done => "done"
    case Error => "error"
    case Cancel => "cancel"
    case Reset => "reset"
  }

  /** The stage a name denotes, if it is one of the stage names. */
  function StageOfName(n: string): (r: Option<Stage>)
    ensures r.Some? <==> n in AVAILABLE_ACTIONS
    ensures r.Some? ==> StageName(r.value) == n
  {
    if n == "start" then Some(Start)
    else if n == "progress" then Some(Progress)
    else if n == "done" then Some(Done)
    else if n == "error" then Some(Error)
    else if n == "cancel" then Some(Cancel)
    else if n == "reset" then Some(Reset)
    else None
  }

  /** Every stage name is listed, and the list is exactly the stage names. */
  lemma StageNamesListed(s: Stage)
    ensures StageName(s) in AVAILABLE_ACTIONS
    ensures StageOfName(StageName(s)) == Some(s)
  {
  }

  /** `toUpperCase` on the ASCII letters the stage names are made of. */
  function UpperChar(c: char): char {
    if 'a' <= c <= 'z' then (c as int - 32) as char else c
  }

  function Upper(s: string): (r: string)
    ensures |r| == |s|
    ensures forall i :: 0 <= i < |s| && 'a' <= s[i] <= 'z' ==> r[i] as int == s[i] as int - 32
    ensures forall i :: 0 <= i < |s| && !('a' <= s[i] <= 'z') ==> r[i] == s[i]
  {
    seq(|s|, i requires 0 <= i < |s| => UpperChar(s[i]))
  }

  /** The upper-cased stage name that prefixes every type of the stage. */
  function Tag(s: Stage): string {
    match s
    case Start => "START"
    case Progress => "PROGRESS"
    case Done => "DONE"
    case Error => "ERROR"
    case Cancel => "CANCEL"
    case Reset => "RESET"
  }

  lemma TagIsUpperName(s: Stage)
    ensures Tag(s) == Upper(StageName(s))
  {
    var n := StageName(s);
    forall i | 0 <= i < |n|
      ensures Upper(n)[i] == Tag(s)[i]
    {
    }
  }

  /** The type of stage `s` of the action set keyed by `k`. */
  function TypeOf(s: Stage, k: string): string {
    Tag(s) + "_" + k
  }

  /** The part of a type that comes before the store key. */
  function Prefix(s: Stage): string {
    Tag(s) + "_"
  }

  /** No string starts with the prefixes of two different stages. */
  lemma PrefixesArePrefixFree(s: Stage, s': Stage, t: string)
    requires Prefix(s) <= t && Prefix(s') <= t
    ensures s == s'
  {
    assert t[0] == Prefix(s)[0] == Prefix(s')[0];
  }

  /** The store key following prefix `p` in `t`. */
  function After(p: string, t: string): string
    requires p <= t
  {
    t[|p|..]
  }

  /** Reads a type back into its stage and store key. */
  function ParseType(t: string): (r: Option<(Stage, string)>)
    ensures r.Some? ==> TypeOf(r.value.0, r.value.1) == t
    ensures r.None? ==> forall s: Stage :: !(Prefix(s) <= t)
  {
    if Prefix(Start) <= t then Some((Start, After(Prefix(Start), t)))
    else if Prefix(Progress) <= t then Some((Progress, After(Prefix(Progress), t)))
    else if Prefix(Done) <= t then Some((Done, After(Prefix(Done), t)))
    else if Prefix(Error) <= t then Some((Error, After(Prefix(Error), t)))
    else if Prefix(Cancel) <= t then Some((Cancel, After(Prefix(Cancel), t)))
    else if Prefix(Reset) <= t then Some((Reset, After(Prefix(Reset), t)))
    else None
  }

  /** Types decode to the stage and store key they were built from. */
  lemma ParseTypeRoundTrip(s: Stage, k: string)
    ensures ParseType(TypeOf(s, k)) == Some((s, k))
  {
    var t := TypeOf(s, k);
    assert Prefix(s) <= t;
    var r := ParseType(t);
    assert r.Some?;
    PrefixesArePrefixFree(s, r.value.0, t);
    assert t == Prefix(s) + k;
    assert t == Prefix(s) + r.value.1;
    assert k == t[|Prefix(s)|..] == r.value.1;
  }

  /** The six types of store key `k`. */
  function TypesOf(k: string): set<string> {
    {TypeOf(Start, k), TypeOf(Progress, k), TypeOf(Done, k), TypeOf(Error, k), TypeOf(Cancel, k), TypeOf(Reset, k)}
  }

  /** Every stage's type is among the types of its store key, and among no other key's. */
  lemma TypeOfIn(s: Stage, k: string, k': string)
    ensures TypeOf(s, k) in TypesOf(k') <==> k == k'
  {
    if TypeOf(s, k) in TypesOf(k') {
      var s' :| s' in {Start, Progress, Done, Error, Cancel, Reset} && TypeOf(s, k) == TypeOf(s', k');
      TypeOfInjective(s, k, s', k');
    }
    if k == k' {
      match s
      case Start =>
      case Progress =>
      case Done =>
      case Error =>
      case Cancel =>
      case Reset =>
    }
  }

  /** A string is one of the types of `k` exactly when it parses to `k`. */
  lemma TypesOfParse(t: string, k: string)
    ensures t in TypesOf(k) <==> ParseType(t).Some? && ParseType(t).value.1 == k
  {
    if ParseType(t).Some? && ParseType(t).value.1 == k {
      var s := ParseType(t).value.0;
      assert t == TypeOf(s, k);
      assert s in {Start, Progress, Done, Error, Cancel, Reset};
    }
    if t in TypesOf(k) {
      var s :| s in {Start, Progress, Done, Error, Cancel, Reset} && t == TypeOf(s, k);
      ParseTypeRoundTrip(s, k);
    }
  }

  /** Sets with different store keys share no type. */
  lemma TypesOfDisjoint(k1: string, k2: string)
    requires k1 != k2
    ensures TypesOf(k1) * TypesOf(k2) == {}
  {
    forall t | t in TypesOf(k1)
      ensures t !in TypesOf(k2)
    {
      TypesOfParse(t, k1);
      TypesOfParse(t, k2);
    }
  }

  /** The types of every store key in `keys`. */
  function TypesOfAll(keys: seq<string>): set<string> {
    if |keys| == 0 then {} else TypesOfAll(keys[..|keys| - 1]) + TypesOf(keys[|keys| - 1])
  }

  lemma TypesOfAllTwo(k1: string, k2: string)
    ensures TypesOfAll([k1, k2]) == TypesOf(k1) + TypesOf(k2)
  {
    assert [k1, k2][..1] == [k1];
    assert [k1][..0] == [];
    assert TypesOfAll([k1]) == TypesOf(k1);
  }

  /** A string is a type of one of `keys` exactly when it parses to one of them. */
  lemma {:induction false} TypesOfAllParse(t: string, keys: seq<string>)
    ensures t in TypesOfAll(keys) <==> ParseType(t).Some? && ParseType(t).value.1 in keys
  {
    if |keys| > 0 {
      var front := keys[..|keys| - 1];
      TypesOfAllParse(t, front);
      TypesOfParse(t, keys[|keys| - 1]);
      assert keys == front + [keys[|keys| - 1]];
    }
  }

  /** A type determines its (stage, store key) pair. */
  lemma TypeOfInjective(s: Stage, k: string, s': Stage, k': string)
    requires TypeOf(s, k) == TypeOf(s', k')
    ensures s == s' && k == k'
  {
    ParseTypeRoundTrip(s, k);
    ParseTypeRoundTrip(s', k');
  }

  /** `getAsyncKeys(storeKey)`: the reduce over the stage names that assigns each name
      its action type. */
  function GetAsyncKeys(storeKey: string): (keys: map<string, string>)
    ensures forall n :: n in keys <==> n in AVAILABLE_ACTIONS
    ensures forall n :: n in keys ==> keys[n] == Upper(n) + "_" + storeKey
  {
    map n | n in AVAILABLE_ACTIONS :: Upper(n) + "_" + storeKey
  }

  /** Every stage name is a key of `getAsyncKeys(k)`, mapped to the upper-cased name
      followed by `_` and the store key as given (the store key is not upper-cased). */
  lemma GetAsyncKeysAt(k: string, s: Stage)
    ensures StageName(s) in GetAsyncKeys(k) && GetAsyncKeys(k)[StageName(s)] == TypeOf(s, k)
  {
    StageNamesListed(s);
    TagIsUpperName(s);
  }

  /** The six stage names mapped to their types for store key `k`. */
  function TypesDisplay(k: string): map<string, string> {
    map["start" := TypeOf(Start, k), "progress" := TypeOf(Progress, k),
        "done" := TypeOf(Done, k), "error" := TypeOf(Error, k),
        "cancel" := TypeOf(Cancel, k), "reset" := TypeOf(Reset, k)]
  }

  /** `getAsyncKeys(k)` written out: the six stage names and their types. */
  lemma GetAsyncKeysDisplay(k: string)
    ensures GetAsyncKeys(k) == TypesDisplay(k)
  {
    forall s: Stage
      ensures StageName(s) in GetAsyncKeys(k) && GetAsyncKeys(k)[StageName(s)] == TypeOf(s, k)
    {
      GetAsyncKeysAt(k, s);
    }
    DisplayEqual(k, GetAsyncKeys(k));
  }

  lemma DisplayEqual(k: string, m: map<string, string>)
    requires forall s: Stage :: StageName(s) in m && m[StageName(s)] == TypeOf(s, k)
    requires forall n :: n in m <==> n in AVAILABLE_ACTIONS
    ensures m == TypesDisplay(k)
  {
    var d := TypesDisplay(k);
    assert StageName(Start) in m && StageName(Progress) in m && StageName(Done) in m;
    assert StageName(Error) in m && StageName(Cancel) in m && StageName(Reset) in m;
    DisplayKeys(k, m);
    forall n | n in m
      ensures m[n] == d[n]
    {
      TypesDisplayAt(k, StageOfName(n).value);
    }
  }

  /** A map keyed by exactly the stage names has the written-out map's keys. */
  lemma DisplayKeys(k: string, m: map<string, string>)
    requires forall n :: n in m <==> n in AVAILABLE_ACTIONS
    ensures m.Keys == TypesDisplay(k).Keys
  {
  }

  /** The written-out map gives each stage name its stage's type. */
  lemma TypesDisplayAt(k: string, s: Stage)
    ensures StageName(s) in TypesDisplay(k) && TypesDisplay(k)[StageName(s)] == TypeOf(s, k)
  {
  }

  /** The six types of one store key differ in their first letter. */
  lemma StageTypesDistinct(k: string, s: Stage, s': Stage)
    requires s != s'
    ensures TypeOf(s, k) != TypeOf(s', k)
  {
    assert TypeOf(s, k)[0] == Tag(s)[0] && TypeOf(s', k)[0] == Tag(s')[0];
  }

  /** An action set: one creator per stage, stringifying to its store key. */
  datatype AsyncActions = AsyncActions(storeKey: string) {
    function Member(s: Stage): ActionCreator {
      GetAsyncKeysAt(storeKey, s);
      CreateAction(GetAsyncKeys(storeKey)[StageName(s)])
    }

    function ToString(): string {
      storeKey
    }
  }

  function CreateAsyncActions(storeKey: string): (a: AsyncActions)
    ensures a.ToString() == storeKey
  {
    AsyncActions(storeKey)
  }

  /** Each member's type, and its string form, is the stage's entry of `getAsyncKeys`. */
  lemma MembersCarryTheirTypes(k: string, s: Stage)
    ensures CreateAsyncActions(k).Member(s).actionType == GetAsyncKeys(k)[StageName(s)] == TypeOf(s, k)
    ensures CreateAsyncActions(k).Member(s).ToString() == TypeOf(s, k)
  {
    GetAsyncKeysAt(k, s);
  }

  /** The six types of one set are distinct, and sets with different keys share no type. */
  lemma TypesCollisionFree(k: string, s: Stage, k': string, s': Stage)
    requires s != s' || k != k'
    ensures CreateAsyncActions(k).Member(s).actionType != CreateAsyncActions(k').Member(s').actionType
  {
    MembersCarryTheirTypes(k, s);
    MembersCarryTheirTypes(k', s');
    if TypeOf(s, k) == TypeOf(s', k') {
      TypeOfInjective(s, k, s', k');
    }
  }

  /** A reducer hook: previous field value and action to the new field value. */
  type Hook = (Value, Action) -> Value

  /** A primitive JS value: anything but a reference to an object or function. */
  type Primitive = v: Value | !v.Ref? witness Undefined

  /** The JS values a reducer-config argument can be: a primitive, a function with
      its own enumerable properties, an action set (an instance carrying the
      action-set prototype), or a plain object, each object written as its property
      assignments. */
  datatype Handler =
    | Prim(v: Primitive)
    | Func(hook: Hook, props: Entries<Handler>)
    | ActionSet(actions: AsyncActions)
    | Object(entries: Entries<Handler>)

  /** An own method of an action set or of a creator. Only `typeof` ever looks at one
      where a handler is expected, so what it computes as a hook is immaterial. */
  function OwnMethod(prev: Value, a: Action): Value {
    prev
  }

  /** The own properties of an action creator, in assignment order: `toString` and `type`. */
  function CreatorProps(c: ActionCreator): Entries<Handler> {
    [("toString", Func(OwnMethod, [])), ("type", Prim(Str(c.actionType)))]
  }

  /** The own properties of an action set, in assignment order: the creator of each stage
      under the stage's name, in the order of `AVAILABLE_ACTIONS`, then `toString`. */
  function ActionSetProps(a: AsyncActions): (es: Entries<Handler>)
    ensures |es| == 7 && es[6] == ("toString", Func(OwnMethod, []))
    ensures forall i :: 0 <= i < 6 ==> StageOfName(es[i].0).Some? && es[i].1.Func?
  {
    [("start", Func(OwnMethod, CreatorProps(a.Member(Start)))),
     ("progress", Func(OwnMethod, CreatorProps(a.Member(Progress)))),
     ("done", Func(OwnMethod, CreatorProps(a.Member(Done)))),
     ("error", Func(OwnMethod, CreatorProps(a.Member(Error)))),
     ("cancel", Func(OwnMethod, CreatorProps(a.Member(Cancel)))),
     ("reset", Func(OwnMethod, CreatorProps(a.Member(Reset)))),
     ("toString", Func(OwnMethod, []))]
  }

  /** `isAsyncActions`: the prototype test, here the constructor tag. */
  predicate IsAsyncActions(h: Handler)
    ensures IsAsyncActions(h) <==> exists k :: h == ActionSet(CreateAsyncActions(k))
  {
    if h.ActionSet? then
      assert h == ActionSet(CreateAsyncActions(h.actions.storeKey));
      true
    else false
  }
}

=== FILE: async_reducer.dfy ===
/**
 * The reducer engine: per-stage node transitions with default or hooked field
 * reducers, validation and normalisation of hook configurations, and the
 * assembly of the flat action-type to transition dispatch table.
 */
module AsyncReducer {
  import opened JsValues
  import opened Utils
  import opened AsyncActionSets

  /** A node transition: previous node and action to the next node. */
  type Transition = (Node, Action) -> Node

  /** Per-stage hooks of one action set, by property name. */
  type HookMap = map<string, Hook>

  /** `defaultReducer(state = null, { payload = null } = {})`: `payload || state`. */
  function DefaultReducer(prev: Value, a: Action): (r: Value)
    ensures Truthy(a.payload) ==> r == a.payload
    ensures !Truthy(a.payload) && prev != Undefined ==> r == prev
    ensures !Truthy(a.payload) && prev == Undefined ==> r == Null
  {
    Or(Default(a.payload, Null), Default(prev, Null))
  }

  /** `initialValueReducer(initialValue)`: ignores its inputs, gives `initialValue || null`. */
  function InitialValueReducer(initialValue: Value): (h: Hook)
    ensures forall prev, a :: h(prev, a) == (if Truthy(initialValue) then initialValue else Null)
  {
    (prev: Value, a: Action) => Or(initialValue, Null)
  }

  /** `nullifierReducer`: null, whatever the previous value and the action. */
  function NullifierReducer(prev: Value, a: Action): (r: Value)
    ensures r == Null
  {
    Null
  }

  /** A hook argument that was passed, or None when it was left `undefined`. */
  function HookAt(hooks: HookMap, name: string): Option<Hook> {
    if name in hooks then Some(hooks[name]) else None
  }

  /** `t` sets `status`, computes the payload with `pr` and the error with `er`. */
  ghost predicate Computes(t: Transition, status: Value, pr: Hook, er: Hook) {
    forall n: Node, a: Action :: t(n, a) == Node(status, pr(n.payload, a), er(n.error, a))
  }

  /** `getAsyncNodeReducer(status, payloadReducer = defaultReducer, errorReducer = defaultReducer)`. */
  function GetAsyncNodeReducer(status: Value, payloadReducer: Option<Hook>, errorReducer: Option<Hook>): (t: Transition)
    ensures forall n, a :: t(n, a).status == status
    ensures Computes(t, status, payloadReducer.GetOr(DefaultReducer), errorReducer.GetOr(DefaultReducer))
  {
    var pr := payloadReducer.GetOr(DefaultReducer);
    var er := errorReducer.GetOr(DefaultReducer);
    (n: Node, a: Action) => Node(status, pr(n.payload, a), er(n.error, a))
  }

  function HandleStart(payloadReducer: Option<Hook>, errorReducer: Option<Hook>): (t: Transition)
    ensures Computes(t, STARTED, payloadReducer.GetOr(DefaultReducer), errorReducer.GetOr(NullifierReducer))
  {
    GetAsyncNodeReducer(STARTED, payloadReducer, Some(errorReducer.GetOr(NullifierReducer)))
  }

  function HandleProgress(payloadReducer: Option<Hook>, errorReducer: Option<Hook>): (t: Transition)
    ensures Computes(t, STARTED, payloadReducer.GetOr(DefaultReducer), errorReducer.GetOr(NullifierReducer))
  {
    GetAsyncNodeReducer(STARTED, payloadReducer, Some(errorReducer.GetOr(NullifierReducer)))
  }

  function HandleDone(payloadReducer: Option<Hook>, errorReducer: Option<Hook>): (t: Transition)
    ensures Computes(t, DONE, payloadReducer.GetOr(DefaultReducer), errorReducer.GetOr(NullifierReducer))
  {
    GetAsyncNodeReducer(DONE, payloadReducer, Some(errorReducer.GetOr(NullifierReducer)))
  }

  function HandleError(payloadReducer: Option<Hook>, errorReducer: Option<Hook>): (t: Transition)
    ensures Computes(t, ERROR, payloadReducer.GetOr(NullifierReducer), errorReducer.GetOr(DefaultReducer))
  {
    GetAsyncNodeReducer(ERROR, Some(payloadReducer.GetOr(NullifierReducer)), errorReducer)
  }

  function HandleCancel(payloadReducer: Option<Hook>, errorReducer: Option<Hook>): (t: Transition)
    ensures Computes(t, CANCELLED, payloadReducer.GetOr(NullifierReducer), errorReducer.GetOr(DefaultReducer))
  {
    GetAsyncNodeReducer(CANCELLED, Some(payloadReducer.GetOr(NullifierReducer)), errorReducer)
  }

  function HandleReset(initialPayload: Value, payloadReducer: Option<Hook>, errorReducer: Option<Hook>): (t: Transition)
    ensures Computes(t, INITIAL, payloadReducer.GetOr(InitialValueReducer(initialPayload)), errorReducer.GetOr(NullifierReducer))
  {
    GetAsyncNodeReducer(INITIAL, Some(payloadReducer.GetOr(InitialValueReducer(initialPayload))),
                        Some(errorReducer.GetOr(NullifierReducer)))
  }

  /** The action-type map has an entry for every stage name. */
  predicate HasStageKeys(actions: map<string, string>) {
    && "start" in actions && "progress" in actions && "done" in actions
    && "error" in actions && "cancel" in actions && "reset" in actions
  }

  /** The transition `createActionsHandler` installs for stage `s`. The progress stage
      reads its error hook from the property `flush`. */
  function StageHandler(s: Stage, initialPayload: Value, payloadReducers: HookMap, errorReducers: HookMap): (t: Transition)
    ensures forall n, a :: t(n, a).status == StageStatus(s)
  {
    match s
    case Start => HandleStart(HookAt(payloadReducers, "start"), HookAt(errorReducers, "start"))
    case Progress => HandleProgress(HookAt(payloadReducers, "progress"), HookAt(errorReducers, "flush"))
    case Done => HandleDone(HookAt(payloadReducers, "done"), HookAt(errorReducers, "done"))
    case Error => HandleError(HookAt(payloadReducers, "error"), HookAt(errorReducers, "error"))
    case Cancel => HandleCancel(HookAt(payloadReducers, "cancel"), HookAt(errorReducers, "cancel"))
    case Reset => HandleReset(initialPayload, HookAt(payloadReducers, "reset"), HookAt(errorReducers, "reset"))
  }

  /** `createActionsHandler(initialPayload, actions, payloadReducers, errorReducers)`:
      one transition per stage, keyed by the stage's action type. */
  function CreateActionsHandler(initialPayload: Value, actions: map<string, string>,
                                payloadReducers: HookMap, errorReducers: HookMap): (r: map<string, Transition>)
    requires HasStageKeys(actions)
    ensures r.Keys == {actions["start"], actions["progress"], actions["done"],
                       actions["error"], actions["cancel"], actions["reset"]}
  {
    map[
      actions["start"] := StageHandler(Start, initialPayload, payloadReducers, errorReducers),
      actions["progress"] := StageHandler(Progress, initialPayload, payloadReducers, errorReducers),
      actions["done"] := StageHandler(Done, initialPayload, payloadReducers, errorReducers),
      actions["error"] := StageHandler(Error, initialPayload, payloadReducers, errorReducers),
      actions["cancel"] := StageHandler(Cancel, initialPayload, payloadReducers, errorReducers),
      actions["reset"] := StageHandler(Reset, initialPayload, payloadReducers, errorReducers)
    ]
  }

  // ----- The transition of each stage, stated stage by stage -----

  /** The status every transition of a stage sets, whatever the node and hooks. */
  function StageStatus(s: Stage): Value {
    match s
    case Start => STARTED
    case Progress => STARTED
    case Done => DONE
    case Error => ERROR
    case Cancel => CANCELLED
    case Reset => INITIAL
  }

  /** The property of the error-hook map a stage reads. */
  function ErrorHookName(s: Stage): string {
    if s == Progress then "flush" else StageName(s)
  }

  /** The payload a stage computes without a payload hook. */
  function DefaultPayload(s: Stage, initialPayload: Value, prev: Value, a: Action): Value {
    match s
    case Start => DefaultReducer(prev, a)
    case Progress => DefaultReducer(prev, a)
    case Done => DefaultReducer(prev, a)
    case Error => Null
    case Cancel => Null
    case Reset => if Truthy(initialPayload) then initialPayload else Null
  }

  /** The error a stage computes without an error hook. */
  function DefaultError(s: Stage, prev: Value, a: Action): Value {
    match s
    case Error => DefaultReducer(prev, a)
    case Cancel => DefaultReducer(prev, a)
    case _ => Null
  }

  /** The node stage `s` produces, given the action set's hook maps. */
  function StageResult(s: Stage, initialPayload: Value, payloadHooks: HookMap, errorHooks: HookMap,
                       n: Node, a: Action): Node {
    var payload := if StageName(s) in payloadHooks then payloadHooks[StageName(s)](n.payload, a)
                   else DefaultPayload(s, initialPayload, n.payload, a);
    var error := if ErrorHookName(s) in errorHooks then errorHooks[ErrorHookName(s)](n.error, a)
                 else DefaultError(s, n.error, a);
    Node(StageStatus(s), payload, error)
  }

  /** The six types of an action-type map are pairwise different. */
  predicate DistinctStageTypes(actions: map<string, string>)
    requires HasStageKeys(actions)
  {
    Distinct([actions["start"], actions["progress"], actions["done"],
              actions["error"], actions["cancel"], actions["reset"]])
  }

  /** A hook looked up with a fallback behaves as the hook when present, else as the fallback. */
  lemma HookOrFallback(hooks: HookMap, name: string, fallback: Hook, v: Value, a: Action)
    ensures HookAt(hooks, name).GetOr(fallback)(v, a)
            == if name in hooks then hooks[name](v, a) else fallback(v, a)
  {
    if name in hooks {
      assert HookAt(hooks, name).GetOr(fallback) == hooks[name];
    } else {
      assert HookAt(hooks, name).GetOr(fallback) == fallback;
    }
  }

  /** Each stage's transition sets the stage's status and computes each field with the
      stage's own hook when one is given, else with the stage's default. */
  lemma StageHandlerResult(s: Stage, initialPayload: Value, payloadHooks: HookMap, errorHooks: HookMap,
                           n: Node, a: Action)
    ensures StageHandler(s, initialPayload, payloadHooks, errorHooks)(n, a)
            == StageResult(s, initialPayload, payloadHooks, errorHooks, n, a)
  {
    var pn := StageName(s);
    var en := ErrorHookName(s);
    var payloadDefault: Hook := match s
      case Error => NullifierReducer
      case Cancel => NullifierReducer
      case Reset => InitialValueReducer(initialPayload)
      case _ => DefaultReducer;
    var errorDefault: Hook := if s == Error || s == Cancel then DefaultReducer else NullifierReducer;
    var pr := HookAt(payloadHooks, pn).GetOr(payloadDefault);
    var er := HookAt(errorHooks, en).GetOr(errorDefault);
    assert Computes(StageHandler(s, initialPayload, payloadHooks, errorHooks), StageStatus(s), pr, er);
    HookOrFallback(payloadHooks, pn, payloadDefault, n.payload, a);
    HookOrFallback(errorHooks, en, errorDefault, n.error, a);
  }

  /** With distinct stage types, each stage's type is bound to that stage's transition. */
  lemma ActionsHandlerAt(initialPayload: Value, actions: map<string, string>, payloadHooks: HookMap,
                         errorHooks: HookMap, s: Stage)
    requires HasStageKeys(actions) && DistinctStageTypes(actions)
    ensures var table := CreateActionsHandler(initialPayload, actions, payloadHooks, errorHooks);
            StageName(s) in actions && actions[StageName(s)] in table &&
            table[actions[StageName(s)]] == StageHandler(s, initialPayload, payloadHooks, errorHooks)
  {
    var types := [actions["start"], actions["progress"], actions["done"],
                  actions["error"], actions["cancel"], actions["reset"]];
    assert types[0] != types[1] && types[0] != types[2] && types[0] != types[3] && types[0] != types[4] && types[0] != types[5];
    assert types[1] != types[2] && types[1] != types[3] && types[1] != types[4] && types[1] != types[5];
    assert types[2] != types[3] && types[2] != types[4] && types[2] != types[5];
    assert types[3] != types[4] && types[3] != types[5] && types[4] != types[5];
  }

  /** The types `getAsyncKeys` derives for one store key are pairwise different. */
  lemma GetAsyncKeysStageTypes(k: string)
    ensures HasStageKeys(GetAsyncKeys(k)) && DistinctStageTypes(GetAsyncKeys(k))
    ensures forall s: Stage :: StageName(s) in GetAsyncKeys(k) && GetAsyncKeys(k)[StageName(s)] == TypeOf(s, k)
  {
    var m := GetAsyncKeys(k);
    forall s: Stage
      ensures StageName(s) in m && m[StageName(s)] == TypeOf(s, k)
    {
      GetAsyncKeysAt(k, s);
    }
    assert [m["start"], m["progress"], m["done"], m["error"], m["cancel"], m["reset"]] == StageTypes(k) by {
      assert StageName(Start) == "start" && StageName(Progress) == "progress" && StageName(Done) == "done";
      assert StageName(Error) == "error" && StageName(Cancel) == "cancel" && StageName(Reset) == "reset";
    }
    StageTypesAllDistinct(k);
  }

  /** The six types of one store key, in stage order. */
  function StageTypes(k: string): seq<string> {
    [TypeOf(Start, k), TypeOf(Progress, k), TypeOf(Done, k),
     TypeOf(Error, k), TypeOf(Cancel, k), TypeOf(Reset, k)]
  }

  lemma StageTypesAllDistinct(k: string)
    ensures Distinct(StageTypes(k))
  {
    var stages := [Start, Progress, Done, Error, Cancel, Reset];
    assert forall i :: 0 <= i < 6 ==> StageTypes(k)[i] == TypeOf(stages[i], k);
    forall i, j | 0 <= i < j < 6
      ensures StageTypes(k)[i] != StageTypes(k)[j]
    {
      StageTypesDistinct(k, stages[i], stages[j]);
    }
  }

  /** The table `createActionsHandler` builds for store key `k` maps each stage's type to
      that stage's transition: fixed status, each field from its own hook or the default. */
  lemma ActionsHandlerStages(initialPayload: Value, k: string, payloadHooks: HookMap, errorHooks: HookMap,
                             s: Stage, n: Node, a: Action)
    ensures StageName(s) in GetAsyncKeys(k) && GetAsyncKeys(k)[StageName(s)] == TypeOf(s, k)
    ensures HasStageKeys(GetAsyncKeys(k)) &&
            var table := CreateActionsHandler(initialPayload, GetAsyncKeys(k), payloadHooks, errorHooks);
            TypeOf(s, k) in table && table[TypeOf(s, k)](n, a) == StageResult(s, initialPayload, payloadHooks, errorHooks, n, a)
  {
    GetAsyncKeysStageTypes(k);
    ActionsHandlerAt(initialPayload, GetAsyncKeys(k), payloadHooks, errorHooks, s);
    StageHandlerResult(s, initialPayload, payloadHooks, errorHooks, n, a);
  }

  /** The status of a transition depends on its stage alone. */
  lemma StatusByStageAlone(initialPayload: Value, k: string, payloadHooks: HookMap, errorHooks: HookMap,
                           s: Stage, n: Node, a: Action)
    ensures var table := CreateActionsHandler(initialPayload, GetAsyncKeys(k), payloadHooks, errorHooks);
            TypeOf(s, k) in table && table[TypeOf(s, k)](n, a).status == StageStatus(s)
  {
    ActionsHandlerStages(initialPayload, k, payloadHooks, errorHooks, s, n, a);
  }

  /** Without hooks: start, progress and done take a truthy action payload and keep the
      previous payload otherwise, clearing the error; error and cancel clear the payload
      and take a truthy action payload as the error, keeping the previous one otherwise;
      reset restores a truthy initial payload (else null) and clears the error. */
  lemma DefaultTransitions(initialPayload: Value, k: string, s: Stage, n: Node, a: Action)
    ensures TypeOf(s, k) in CreateActionsHandler(initialPayload, GetAsyncKeys(k), map[], map[])
    ensures var table := CreateActionsHandler(initialPayload, GetAsyncKeys(k), map[], map[]);
            var r := table[TypeOf(s, k)](n, a);
            && (s in {Start, Progress, Done} ==>
                  r.payload == (if Truthy(a.payload) then a.payload else Default(n.payload, Null)) && r.error == Null)
            && (s in {Error, Cancel} ==>
                  r.payload == Null && r.error == (if Truthy(a.payload) then a.payload else Default(n.error, Null)))
            && (s == Reset ==>
                  r.payload == (if Truthy(initialPayload) then initialPayload else Null) && r.error == Null)
  {
    ActionsHandlerStages(initialPayload, k, map[], map[], s, n, a);
  }

  /** A payload hook for a stage replaces the payload computation of that stage and
      nothing else: the status and error are those of the hook-free transition. */
  lemma PayloadHookReplacesOnlyPayload(initialPayload: Value, k: string, payloadHooks: HookMap,
                                       errorHooks: HookMap, s: Stage, n: Node, a: Action)
    requires StageName(s) in payloadHooks
    ensures TypeOf(s, k) in CreateActionsHandler(initialPayload, GetAsyncKeys(k), payloadHooks, errorHooks)
    ensures TypeOf(s, k) in CreateActionsHandler(initialPayload, GetAsyncKeys(k), map[], errorHooks)
    ensures var hooked := CreateActionsHandler(initialPayload, GetAsyncKeys(k), payloadHooks, errorHooks)[TypeOf(s, k)](n, a);
            var plain := CreateActionsHandler(initialPayload, GetAsyncKeys(k), map[], errorHooks)[TypeOf(s, k)](n, a);
            hooked == plain.(payload := payloadHooks[StageName(s)](n.payload, a))
  {
    ActionsHandlerStages(initialPayload, k, payloadHooks, errorHooks, s, n, a);
    ActionsHandlerStages(initialPayload, k, map[], errorHooks, s, n, a);
  }

  /** An error hook replaces the error computation of its stage and nothing else; the
      progress stage takes its error hook from `flush`, never from `progress`. */
  lemma ErrorHookReplacesOnlyError(initialPayload: Value, k: string, payloadHooks: HookMap,
                                   errorHooks: HookMap, s: Stage, n: Node, a: Action)
    requires ErrorHookName(s) in errorHooks
    ensures TypeOf(s, k) in CreateActionsHandler(initialPayload, GetAsyncKeys(k), payloadHooks, errorHooks)
    ensures TypeOf(s, k) in CreateActionsHandler(initialPayload, GetAsyncKeys(k), payloadHooks, map[])
    ensures var hooked := CreateActionsHandler(initialPayload, GetAsyncKeys(k), payloadHooks, errorHooks)[TypeOf(s, k)](n, a);
            var plain := CreateActionsHandler(initialPayload, GetAsyncKeys(k), payloadHooks, map[])[TypeOf(s, k)](n, a);
            hooked == plain.(error := errorHooks[ErrorHookName(s)](n.error, a))
  {
    ActionsHandlerStages(initialPayload, k, payloadHooks, errorHooks, s, n, a);
    ActionsHandlerStages(initialPayload, k, payloadHooks, map[], s, n, a);
  }

  // ----- Validation of hook configurations -----

  /** `checkProps(config)`: at least one own key, and every own key a stage name bound to a function. */
  predicate CheckProps(es: Entries<Handler>)
    ensures CheckProps(es) ==> forall k :: k in Keys(es) ==> StageOfName(k).Some? && Prop(es, k).Func?
    ensures |es| == 0 ==> !CheckProps(es)
  {
    |Keys(es)| > 0 && forall k :: k in Keys(es) ==> k in AVAILABLE_ACTIONS && Prop(es, k).Func?
  }

  /** The value of a property, `undefined` when there is none. */
  function Prop(es: Entries<Handler>, prop: string): Handler {
    Lookup(es, prop).GetOr(Prim(Undefined))
  }

  /** The own enumerable properties of a function or a plain object. */
  function OwnProps(h: Handler): Entries<Handler>
    requires h.Func? || h.Object?
  {
    if h.Func? then h.props else h.entries
  }

  /** `isValidConfig`: primitives are not objects; a function, a plain object or an action
      set is checked own property by own property. It never fails. */
  predicate IsValidConfig(h: Handler)
    ensures IsValidConfig(h) <==>
              && (h.Func? || h.Object?)
              && |Keys(OwnProps(h))| > 0
              && forall k :: k in Keys(OwnProps(h)) ==> k in AVAILABLE_ACTIONS && Prop(OwnProps(h), k).Func?
  {
    match h
    case Prim(_) => false
    case Func(_, props) => CheckProps(props)
    case ActionSet(a) => ActionSetFailsCheck(a); CheckProps(ActionSetProps(a))
    case Object(es) => CheckProps(es)
  }

  /** An action set's own keys are its six stage names and `toString`, which is no stage
      name, so `checkProps` rejects every action set. */
  lemma ActionSetFailsCheck(a: AsyncActions)
    ensures "toString" in Keys(ActionSetProps(a)) && "toString" !in AVAILABLE_ACTIONS
    ensures !CheckProps(ActionSetProps(a))
  {
    var es := ActionSetProps(a);
    assert Names(es)[6] == "toString";
    assert StageOfName("toString").None?;
    KeysAreLookupDomain(es, "toString");
  }

  /** The hooks of a configuration, by property name. */
  function HooksOf(es: Entries<Handler>): (hooks: HookMap)
    ensures forall k :: k in hooks <==> k in Keys(es) && Prop(es, k).Func?
    ensures forall k :: k in hooks ==> hooks[k] == Prop(es, k).hook
  {
    map k | k in Keys(es) && Prop(es, k).Func? :: Prop(es, k).hook
  }

  /** A valid configuration only names stages, so it never supplies the `flush` hook. */
  lemma ValidConfigHasNoFlush(h: Handler)
    requires IsValidConfig(h)
    ensures "flush" !in HooksOf(OwnProps(h))
    ensures forall k :: k in HooksOf(OwnProps(h)) ==> StageOfName(k).Some?
  {
    var es := OwnProps(h);
    forall k | k in HooksOf(es)
      ensures StageOfName(k).Some?
    {
      assert k in Keys(es);
    }
    assert StageOfName("flush").None?;
  }

  // ----- Normalisation of handler arguments -----

  datatype ConfigError = MustBeDefined | MustBeObject | InvalidHooks

  /** `AVAILABLE_ACTIONS.join()`. */
  function Join(names: seq<string>): string {
    if |names| == 0 then "" else if |names| == 1 then names[0] else names[0] + "," + Join(names[1..])
  }

  /** The message of each error (the surrounding whitespace of the template literal left out). */
  function Message(e: ConfigError): string {
    match e
    case MustBeDefined => "The handler must be defined"
    case MustBeObject => "The handler must be an object with async actions/objects or async actions objects"
    case InvalidHooks =>
      "The handler must be an AsyncAction or a config object for with one of the async hooks properties: "
        + Join(AVAILABLE_ACTIONS)
  }

  /** A member is accepted when it is an action set or a valid hook configuration. */
  predicate MemberOk(m: Handler) {
    IsAsyncActions(m) || IsValidConfig(m)
  }

  /** The formatted key of an accepted member: an action set's store key, else the property name. */
  function Target(es: Entries<Handler>, prop: string): string {
    var m := Prop(es, prop);
    if IsAsyncActions(m) then m.actions.ToString() else prop
  }

  /** The hooks recorded for an accepted member: none for an action set. */
  function TargetHooks(es: Entries<Handler>, prop: string): HookMap {
    var m := Prop(es, prop);
    if m.Func? || m.Object? then HooksOf(OwnProps(m)) else map[]
  }

  /** The reduce over the object's keys, failing at a member that is neither accepted form. */
  function FormatMembers(es: Entries<Handler>, props: seq<string>): (r: Result<Entries<HookMap>, ConfigError>)
    ensures r.Success? <==> forall i :: 0 <= i < |props| ==> MemberOk(Prop(es, props[i]))
    ensures r.Failure? ==> r.error == InvalidHooks
    ensures r.Success? ==> |r.value| == |props|
    ensures r.Success? ==>
              forall i :: 0 <= i < |props| ==> r.value[i] == (Target(es, props[i]), TargetHooks(es, props[i]))
  {
    if |props| == 0 then Success([])
    else
      var prop := props[|props| - 1];
      var m := Prop(es, prop);
      var rest := props[..|props| - 1];
      assert rest + [prop] == props;
      SnocAll(rest, prop, (p: string) => MemberOk(Prop(es, p)));
      match FormatMembers(es, rest)
      case Failure(e) => Failure(e)
      case Success(front) =>
        if !MemberOk(m) then Failure(InvalidHooks)
        else
          var last := if IsAsyncActions(m) then (m.actions.ToString(), map[]) else (prop, HooksOf(OwnProps(m)));
          assert last == (Target(es, prop), TargetHooks(es, prop));
          SnocMapped(front, rest, last, prop, (p: string) => (Target(es, p), TargetHooks(es, p)));
          Success(front + [last])
  }

  /** A property holds of every element of an extended list exactly when it holds of every
      element of the list and of the new one. */
  lemma SnocAll(xs: seq<string>, x: string, p: string -> bool)
    ensures (forall i :: 0 <= i < |xs| + 1 ==> p((xs + [x])[i])) <==> (forall i :: 0 <= i < |xs| ==> p(xs[i])) && p(x)
  {
    assert forall i :: 0 <= i < |xs| ==> (xs + [x])[i] == xs[i];
    assert (xs + [x])[|xs|] == x;
  }

  /** Extending a list and its image by one element each keeps the one the image of the other. */
  lemma SnocMapped<T>(ys: seq<T>, xs: seq<string>, y: T, x: string, f: string -> T)
    requires |ys| == |xs| && forall i :: 0 <= i < |xs| ==> ys[i] == f(xs[i])
    requires y == f(x)
    ensures forall i :: 0 <= i < |xs| + 1 ==> (ys + [y])[i] == f((xs + [x])[i])
  {
  }

  /** `formatHandler`: shapes a handler argument into store key to hooks. */
  function FormatHandler(h: Handler): (r: Result<Entries<HookMap>, ConfigError>)
    ensures r.Failure? && r.error == MustBeDefined <==> h.Prim? && !Truthy(h.v)
    ensures r.Failure? && r.error == MustBeObject <==> (h.Prim? && Truthy(h.v)) || h.Func?
    ensures r.Failure? && r.error == InvalidHooks <==>
              h.Object? && exists k :: k in Keys(h.entries) && !MemberOk(Prop(h.entries, k))
    ensures h.ActionSet? ==> r == Success([(h.actions.ToString(), map[])])
  {
    match h
    case Prim(v) => if Truthy(v) then Failure(MustBeObject) else Failure(MustBeDefined)
    case Func(_, _) => Failure(MustBeObject)
    case ActionSet(a) => Success([(a.ToString(), map[])])
    case Object(es) => FormatObject(es)
  }

  /** The object case of `formatHandler`: the reduce over the object's own keys. */
  function FormatObject(es: Entries<Handler>): (r: Result<Entries<HookMap>, ConfigError>)
    ensures r.Failure? ==> r.error == InvalidHooks
    ensures r.Failure? <==> exists k :: k in Keys(es) && !MemberOk(Prop(es, k))
  {
    var r := FormatMembers(es, Keys(es));
    assert r.Failure? ==> exists k :: k in Keys(es) && !MemberOk(Prop(es, k));
    r
  }

  /** On success each member lands under its target key (an action set under its store
      key, a valid configuration under its own property name), and of two members with
      the same target the later one wins. */
  lemma FormatObjectMembers(es: Entries<Handler>, i: nat)
    requires FormatHandler(Object(es)).Success?
    requires i < |Keys(es)|
    requires forall j :: i < j < |Keys(es)| ==> Target(es, Keys(es)[j]) != Target(es, Keys(es)[i])
    ensures var formatted := FormatHandler(Object(es)).value;
            Lookup(formatted, Target(es, Keys(es)[i])) == Some(TargetHooks(es, Keys(es)[i]))
  {
    var formatted := FormatHandler(Object(es)).value;
    assert formatted == FormatMembers(es, Keys(es)).value;
    LookupSeesLastAssignment(formatted, i);
  }

  /** On success the `i`-th formatted entry comes from the object's `i`-th key, whose
      member was accepted. */
  lemma FormattedAt(es: Entries<Handler>, i: nat)
    requires FormatHandler(Object(es)).Success?
    requires i < |FormatHandler(Object(es)).value|
    ensures i < |Keys(es)|
    ensures FormatHandler(Object(es)).value[i] == (Target(es, Keys(es)[i]), TargetHooks(es, Keys(es)[i]))
    ensures MemberOk(Prop(es, Keys(es)[i]))
  {
    assert FormatHandler(Object(es)) == FormatMembers(es, Keys(es));
  }

  /** A one-member configuration object `{[k]: m}` with `m` a valid hook configuration
      formats to `k` with `m`'s hooks. */
  lemma FormatSingleConfig(k: string, m: Handler)
    requires IsValidConfig(m)
    ensures FormatHandler(Object([(k, m)])) == Success([(k, HooksOf(OwnProps(m)))])
  {
    var es := [(k, m)];
    assert Names(es) == [k];
    assert Keys(es) == [k];
    assert Prop(es, k) == m;
    var r := FormatMembers(es, [k]);
    assert r.Success?;
    assert r.value == [(k, HooksOf(OwnProps(m)))];
  }

  /** `mergeHandlers`: the keys of both formatted maps, each once. */
  function MergeHandlers(payload: Entries<HookMap>, error: Entries<HookMap>): (r: seq<string>)
    ensures Distinct(r)
    ensures forall k :: k in r <==> k in Keys(payload) || k in Keys(error)
  {
    Dedupe(Keys(payload) + Keys(error))
  }

  // ----- Assembly of the dispatch table -----

  /** The hooks recorded under a key, none when the key is absent. */
  function HooksAt(formatted: Entries<HookMap>, k: string): HookMap {
    Lookup(formatted, k).GetOr(map[])
  }

  /** The transitions `createActionsHandler` contributes for store key `k`. */
  function KeyHandler(initialPayload: Value, k: string, payloadHandlers: Entries<HookMap>,
                      errorHandlers: Entries<HookMap>): map<string, Transition> {
    CreateActionsHandler(initialPayload, GetAsyncKeys(k), HooksAt(payloadHandlers, k), HooksAt(errorHandlers, k))
  }

  /** The transitions of store key `k` sit under its six types. */
  lemma KeyHandlerKeys(initialPayload: Value, k: string, payloadHandlers: Entries<HookMap>,
                       errorHandlers: Entries<HookMap>)
    ensures KeyHandler(initialPayload, k, payloadHandlers, errorHandlers).Keys == TypesOf(k)
  {
    GetAsyncKeysDisplay(k);
  }

  /** The types of store key `k` are exactly the strings that parse to `k`. */
  lemma KeyHandlerDomain(initialPayload: Value, k: string, payloadHandlers: Entries<HookMap>,
                         errorHandlers: Entries<HookMap>, t: string)
    ensures t in KeyHandler(initialPayload, k, payloadHandlers, errorHandlers) <==>
              ParseType(t).Some? && ParseType(t).value.1 == k
  {
    KeyHandlerKeys(initialPayload, k, payloadHandlers, errorHandlers);
    TypesOfParse(t, k);
  }

  /** The reduce of `createAsyncReducerConfig`: each key's transitions spread over the table so far. */
  function BuildTable(initialPayload: Value, keys: seq<string>, payloadHandlers: Entries<HookMap>,
                      errorHandlers: Entries<HookMap>): (table: map<string, Transition>)
    ensures table.Keys == TypesOfAll(keys)
  {
    if |keys| == 0 then map[]
    else
      var k := keys[|keys| - 1];
      var front := BuildTable(initialPayload, keys[..|keys| - 1], payloadHandlers, errorHandlers);
      KeyHandlerKeys(initialPayload, k, payloadHandlers, errorHandlers);
      front + KeyHandler(initialPayload, k, payloadHandlers, errorHandlers)
  }

  /** The table holds exactly the types that parse to one of its store keys. */
  lemma BuildTableDomain(initialPayload: Value, keys: seq<string>, payloadHandlers: Entries<HookMap>,
                         errorHandlers: Entries<HookMap>, t: string)
    ensures t in BuildTable(initialPayload, keys, payloadHandlers, errorHandlers) <==>
              ParseType(t).Some? && ParseType(t).value.1 in keys
  {
    TypesOfAllParse(t, keys);
  }

  /** In a spread `{...front, ...back}` a key of `back` reads from `back`, any other from `front`. */
  lemma SpreadAt<V>(front: map<string, V>, back: map<string, V>, t: string)
    requires t in front || t in back
    ensures t in front + back
    ensures t in back ==> (front + back)[t] == back[t]
    ensures t !in back ==> (front + back)[t] == front[t]
  {
  }

  /** `keys.reduce((acc, k) => ({...acc, ...part(k)}), {})`: the spread of each key's part in turn. */
  function SpreadAll<V>(keys: seq<string>, part: string -> map<string, V>): map<string, V> {
    if |keys| == 0 then map[] else SpreadAll(keys[..|keys| - 1], part) + part(keys[|keys| - 1])
  }

  /** An entry that only one key's part holds survives every later spread. */
  lemma {:induction false} SpreadAllEntry<V>(keys: seq<string>, part: string -> map<string, V>, k: string, t: string)
    requires k in keys && t in part(k)
    requires forall k' :: k' in keys && k' != k ==> t !in part(k')
    ensures t in SpreadAll(keys, part) && SpreadAll(keys, part)[t] == part(k)[t]
  {
    var last := keys[|keys| - 1];
    var front := keys[..|keys| - 1];
    if last != k {
      InFront(keys, k);
      forall k' | k' in front && k' != k
        ensures t !in part(k')
      {
        assert k' in keys;
      }
      SpreadAllEntry(front, part, k, t);
    }
    SpreadAt(SpreadAll(front, part), part(last), t);
  }

  /** The table is the spread of the store keys' handlers. */
  lemma {:induction false} BuildTableIsSpread(initialPayload: Value, keys: seq<string>,
                                              payloadHandlers: Entries<HookMap>, errorHandlers: Entries<HookMap>)
    ensures BuildTable(initialPayload, keys, payloadHandlers, errorHandlers)
            == SpreadAll(keys, (k: string) => KeyHandler(initialPayload, k, payloadHandlers, errorHandlers))
  {
    if |keys| > 0 {
      BuildTableIsSpread(initialPayload, keys[..|keys| - 1], payloadHandlers, errorHandlers);
    }
  }

  /** Every entry of the table is the transition its own store key contributes: keys never
      overwrite one another, since their types never collide. */
  lemma BuildTableEntry(initialPayload: Value, keys: seq<string>,
                        payloadHandlers: Entries<HookMap>, errorHandlers: Entries<HookMap>,
                        k: string, s: Stage)
    requires k in keys
    ensures var table := BuildTable(initialPayload, keys, payloadHandlers, errorHandlers);
            var handler := KeyHandler(initialPayload, k, payloadHandlers, errorHandlers);
            TypeOf(s, k) in table && TypeOf(s, k) in handler && table[TypeOf(s, k)] == handler[TypeOf(s, k)]
  {
    var part := (k': string) => KeyHandler(initialPayload, k', payloadHandlers, errorHandlers);
    var t := TypeOf(s, k);
    BuildTableIsSpread(initialPayload, keys, payloadHandlers, errorHandlers);
    forall k' | k' in keys && k' != k
      ensures t !in part(k')
    {
      KeyHandlerKeys(initialPayload, k', payloadHandlers, errorHandlers);
      TypeOfIn(s, k, k');
    }
    assert t in part(k) by {
      KeyHandlerKeys(initialPayload, k, payloadHandlers, errorHandlers);
      TypeOfIn(s, k, k);
    }
    SpreadAllEntry(keys, part, k, t);
  }

  /** `createAsyncReducerConfig(initialPayload, payloadHandlers, errorHandlers = {})`; an
      omitted error-handler argument is `Prim(Undefined)`. The payload handlers are formatted
      first, so their error is the one reported when both are malformed. */
  function CreateAsyncReducerConfig(initialPayload: Value, payloadHandlers: Handler, errorHandlers: Handler)
    : (r: Result<map<string, Transition>, ConfigError>)
    ensures FormatHandler(payloadHandlers).Failure? ==> r == Failure(FormatHandler(payloadHandlers).error)
    ensures FormatHandler(payloadHandlers).Success? && FormatHandler(ErrorArgument(errorHandlers)).Failure? ==>
              r == Failure(FormatHandler(ErrorArgument(errorHandlers)).error)
    ensures r.Success? <==> FormatHandler(payloadHandlers).Success? && FormatHandler(ErrorArgument(errorHandlers)).Success?
    ensures r.Success? ==>
              var keys := MergeHandlers(FormatHandler(payloadHandlers).value, FormatHandler(ErrorArgument(errorHandlers)).value);
              r.value.Keys == TypesOfAll(keys)
  {
    match FormatHandler(payloadHandlers)
    case Failure(e) => Failure(e)
    case Success(fp) =>
      match FormatHandler(ErrorArgument(errorHandlers))
      case Failure(e) => Failure(e)
      case Success(fe) => Success(BuildTable(initialPayload, MergeHandlers(fp, fe), fp, fe))
  }

  /** The default `{}` replaces an `undefined` error-handler argument (but not `null`). */
  function ErrorArgument(errorHandlers: Handler): (r: Handler)
    ensures errorHandlers == Prim(Undefined) ==> r.Object? && |r.entries| == 0
    ensures errorHandlers != Prim(Undefined) ==> r == errorHandlers
  {
    if errorHandlers.Prim? && errorHandlers.v == Undefined then Object([]) else errorHandlers
  }

  /** Each key of the merged handlers contributes its six transitions, built from its own
      payload and error hooks, or the defaults where a map lacks the key. */
  lemma ReducerConfigEntries(initialPayload: Value, payloadHandlers: Handler, errorHandlers: Handler,
                             k: string, s: Stage, n: Node, a: Action)
    requires CreateAsyncReducerConfig(initialPayload, payloadHandlers, errorHandlers).Success?
    ensures var fp := FormatHandler(payloadHandlers).value;
            var fe := FormatHandler(ErrorArgument(errorHandlers)).value;
            var table := CreateAsyncReducerConfig(initialPayload, payloadHandlers, errorHandlers).value;
            k in MergeHandlers(fp, fe) ==>
              TypeOf(s, k) in table &&
              table[TypeOf(s, k)](n, a) == StageResult(s, initialPayload, HooksAt(fp, k), HooksAt(fe, k), n, a)
  {
    var fp := FormatHandler(payloadHandlers).value;
    var fe := FormatHandler(ErrorArgument(errorHandlers)).value;
    var keys := MergeHandlers(fp, fe);
    if k in keys {
      BuildTableEntry(initialPayload, keys, fp, fe, k, s);
      ActionsHandlerStages(initialPayload, k, HooksAt(fp, k), HooksAt(fe, k), s, n, a);
    }
  }

  /** An omitted error-handler argument formats like the empty object, to no entries. */
  lemma OmittedErrorHandlers()
    ensures FormatHandler(ErrorArgument(Prim(Undefined))) == Success([])
    ensures FormatHandler(ErrorArgument(Object([]))) == Success([])
  {
    assert Keys<Handler>([]) == [];
  }

  /** Handlers formatting to the one key `k` build a reducer whose only key is `k`, with the
      recorded payload hooks and no error hooks. */
  lemma SingleKeyReducer(initialPayload: Value, payloadHandlers: Handler, errorHandlers: Handler,
                         k: string, hooks: HookMap)
    requires FormatHandler(payloadHandlers) == Success([(k, hooks)])
    requires FormatHandler(ErrorArgument(errorHandlers)) == Success([])
    ensures CreateAsyncReducer(initialPayload, payloadHandlers, errorHandlers).Success?
    ensures MergeHandlers(FormatHandler(payloadHandlers).value, FormatHandler(ErrorArgument(errorHandlers)).value) == [k]
    ensures HooksAt(FormatHandler(payloadHandlers).value, k) == hooks
    ensures HooksAt(FormatHandler(ErrorArgument(errorHandlers)).value, k) == map[]
  {
    SingleKeyMerged(k, hooks);
  }

  /** One key with hooks, merged with nothing, is that key alone. */
  lemma SingleKeyMerged(k: string, hooks: HookMap)
    ensures MergeHandlers([(k, hooks)], []) == [k]
    ensures HooksAt([(k, hooks)], k) == hooks && HooksAt([], k) == map[]
  {
    var fp := [(k, hooks)];
    assert Keys(fp) == [k] by {
      assert Names(fp) == [k];
    }
    assert Keys<HookMap>([]) == [];
    assert Keys(fp) + Keys<HookMap>([]) == [k];
  }

  /** Because validation admits only stage names, no configuration can install a progress
      error hook: every progress transition of a built table clears the error. */
  lemma ProgressErrorAlwaysCleared(initialPayload: Value, payloadHandlers: Handler, errorHandlers: Handler,
                                   k: string, n: Node, a: Action)
    requires CreateAsyncReducerConfig(initialPayload, payloadHandlers, errorHandlers).Success?
    requires k in MergeHandlers(FormatHandler(payloadHandlers).value, FormatHandler(ErrorArgument(errorHandlers)).value)
    ensures var table := CreateAsyncReducerConfig(initialPayload, payloadHandlers, errorHandlers).value;
            TypeOf(Progress, k) in table && table[TypeOf(Progress, k)](n, a).error == Null
  {
    var fp := FormatHandler(payloadHandlers).value;
    var fe := FormatHandler(ErrorArgument(errorHandlers)).value;
    ReducerConfigEntries(initialPayload, payloadHandlers, errorHandlers, k, Progress, n, a);
    FormattedHooksNameStages(ErrorArgument(errorHandlers), k);
    ProgressClearsError(initialPayload, HooksAt(fp, k), HooksAt(fe, k), n, a);
  }

  /** A progress transition clears the error unless an error hook is installed under
      the name the progress handler looks up. */
  lemma ProgressClearsError(initialPayload: Value, payloadHooks: HookMap, errorHooks: HookMap, n: Node, a: Action)
    requires "flush" !in errorHooks
    ensures StageResult(Progress, initialPayload, payloadHooks, errorHooks, n, a).error == Null
  {
  }

  /** Every hook map a successful format records names stages only. */
  lemma FormattedHooksNameStages(h: Handler, k: string)
    requires FormatHandler(h).Success?
    ensures forall name :: name in HooksAt(FormatHandler(h).value, k) ==> StageOfName(name).Some?
    ensures "flush" !in HooksAt(FormatHandler(h).value, k)
  {
    var formatted := FormatHandler(h).value;
    if Lookup(formatted, k).Some? && h.Object? {
      var es := h.entries;
      var hooks := Lookup(formatted, k).value;
      var i :| 0 <= i < |formatted| && formatted[i] == (k, hooks);
      assert h == Object(es);
      FormattedAt(es, i);
      MemberHooksNameStages(es, Keys(es)[i]);
    } else if h.ActionSet? {
      var t := h.actions.ToString();
      assert formatted == [(t, map[])];
      assert Lookup(formatted, k) == if t == k then Some(map[]) else None;
    }
  }

  /** The hooks recorded for an accepted member name stages only. */
  lemma MemberHooksNameStages(es: Entries<Handler>, prop: string)
    requires MemberOk(Prop(es, prop))
    ensures forall name :: name in TargetHooks(es, prop) ==> StageOfName(name).Some?
    ensures "flush" !in TargetHooks(es, prop)
  {
    var m := Prop(es, prop);
    if !IsAsyncActions(m) {
      ValidConfigHasNoFlush(m);
      assert TargetHooks(es, prop) == HooksOf(OwnProps(m));
    } else {
      assert TargetHooks(es, prop) == map[];
    }
  }

  /** `createAsyncReducer(initialPayload, payloadHandlers, errorHandlers)`. */
  function CreateAsyncReducer(initialPayload: Value, payloadHandlers: Handler, errorHandlers: Handler)
    : (r: Result<Reducer<Node>, ConfigError>)
    ensures r.Success? <==> CreateAsyncReducerConfig(initialPayload, payloadHandlers, errorHandlers).Success?
    ensures r.Success? ==> r.value.initialState == Node(INITIAL, Default(initialPayload, Null), Null)
    ensures r.Success? ==> r.value.actionMap == CreateAsyncReducerConfig(initialPayload, payloadHandlers, errorHandlers).value
  {
    match CreateAsyncReducerConfig(initialPayload, payloadHandlers, errorHandlers)
    case Failure(e) => Failure(e)
    case Success(table) => Success(CreateReducer(GetStateShape(INITIAL, initialPayload, Null), table))
  }

  /** End to end: dispatching the stage-`s` action of a merged key's set to the built
      reducer applies that stage's transition, with that key's hooks, to the given state
      (or to the initial state when none is given). */
  lemma ReducerDispatchesStage(initialPayload: Value, payloadHandlers: Handler, errorHandlers: Handler,
                               k: string, s: Stage, state: Option<Node>, payload: Value)
    requires CreateAsyncReducer(initialPayload, payloadHandlers, errorHandlers).Success?
    requires k in MergeHandlers(FormatHandler(payloadHandlers).value, FormatHandler(ErrorArgument(errorHandlers)).value)
    ensures var reducer := CreateAsyncReducer(initialPayload, payloadHandlers, errorHandlers).value;
            var action := CreateAsyncActions(k).Member(s).Call(payload);
            Dispatch(reducer, state, Some(action))
            == StageResult(s, initialPayload, HooksAt(FormatHandler(payloadHandlers).value, k),
                           HooksAt(FormatHandler(ErrorArgument(errorHandlers)).value, k),
                           state.GetOr(reducer.initialState), action)
  {
    var reducer := CreateAsyncReducer(initialPayload, payloadHandlers, errorHandlers).value;
    var table := CreateAsyncReducerConfig(initialPayload, payloadHandlers, errorHandlers).value;
    var action := CreateAsyncActions(k).Member(s).Call(payload);
    var n := state.GetOr(reducer.initialState);
    assert TypeKey(action) == TypeOf(s, k) by {
      MembersCarryTheirTypes(k, s);
    }
    assert TypeOf(s, k) in table && table[TypeOf(s, k)](n, action)
           == StageResult(s, initialPayload, HooksAt(FormatHandler(payloadHandlers).value, k),
                          HooksAt(FormatHandler(ErrorArgument(errorHandlers)).value, k), n, action) by {
      ReducerConfigEntries(initialPayload, payloadHandlers, errorHandlers, k, s, n, action);
    }
    assert reducer.actionMap == table;
  }

  /** The built reducer handles exactly the types that parse to one of the merged store
      keys; every other action, the typeless default action included, returns the state it
      is given (or the initial state when none is). */
  lemma BuiltReducerPassesForeignActions(initialPayload: Value, payloadHandlers: Handler, errorHandlers: Handler,
                                         state: Option<Node>, a: Action)
    requires CreateAsyncReducer(initialPayload, payloadHandlers, errorHandlers).Success?
    ensures var reducer := CreateAsyncReducer(initialPayload, payloadHandlers, errorHandlers).value;
            var keys := MergeHandlers(FormatHandler(payloadHandlers).value, FormatHandler(ErrorArgument(errorHandlers)).value);
            TypeKey(a) in reducer.actionMap <==> ParseType(TypeKey(a)).Some? && ParseType(TypeKey(a)).value.1 in keys
    ensures var reducer := CreateAsyncReducer(initialPayload, payloadHandlers, errorHandlers).value;
            var keys := MergeHandlers(FormatHandler(payloadHandlers).value, FormatHandler(ErrorArgument(errorHandlers)).value);
            !(ParseType(TypeKey(a)).Some? && ParseType(TypeKey(a)).value.1 in keys) ==>
              Dispatch(reducer, state, Some(a)) == state.GetOr(reducer.initialState)
  {
    var reducer := CreateAsyncReducer(initialPayload, payloadHandlers, errorHandlers).value;
    var fp := FormatHandler(payloadHandlers).value;
    var fe := FormatHandler(ErrorArgument(errorHandlers)).value;
    var keys := MergeHandlers(fp, fe);
    assert reducer.actionMap == BuildTable(initialPayload, keys, fp, fe);
    BuildTableDomain(initialPayload, keys, fp, fe, TypeKey(a));
    if TypeKey(a) !in reducer.actionMap {
      DispatchUnknownKeepsState(reducer, state, a);
    }
  }
}

=== FILE: get_async_props.dfy ===
/**
 * The read side: a state node turned into the flag record and the
 * payload/error pair a connected component receives.
 */
module AsyncProps {
  import opened JsValues
  import opened Utils

  /** `{loading, done, cancel, error}`. */
  datatype Status = Status(loading: bool, done: bool, cancel: bool, error: bool)

  /** `{status, payload, error}`. */
  datatype Props = Props(status: Status, payload: Value, error: Value)

  /** `getAsyncStatus(asyncProp)`. */
  function GetAsyncStatus(n: Option<Node>): (r: Status)
    ensures r.loading <==> HasStatus(n, STARTED)
    ensures r.done <==> HasStatus(n, DONE) || HasStatus(n, ERROR)
    ensures r.cancel <==> HasStatus(n, CANCELLED)
    ensures r.error <==> HasStatus(n, ERROR)
  {
    Status(IsLoading(n), IsDone(n), IsCancelled(n), HasError(n))
  }

  /** `getAsyncProperties(asyncProp)`. */
  function GetAsyncProperties(n: Option<Node>): (r: Props)
    ensures r.status == GetAsyncStatus(n)
    ensures r.payload == (if n.Some? && Truthy(n.value.payload) then n.value.payload else Null)
    ensures r.error == (if HasStatus(n, ERROR) || HasStatus(n, CANCELLED)
                        then (if Truthy(n.value.error) then n.value.error else Null)
                        else Bool(false))
  {
    Props(GetAsyncStatus(n), GetPayload(n), GetError(n))
  }

  /** A missing node reads as nothing started: no flag, a null payload and a `false` error. */
  lemma MissingNodeProps()
    ensures GetAsyncProperties(None) == Props(Status(false, false, false, false), Null, Bool(false))
  {
  }

  /** At most one of loading, done and cancel holds, and error implies done. */
  lemma StatusFlagsConsistent(n: Option<Node>)
    ensures var st := GetAsyncStatus(n);
            && !(st.loading && st.cancel)
            && (st.loading ==> !st.done)
            && (st.cancel ==> !st.done)
            && (st.error ==> st.done)
  {
  }

  /** The props' error is `false` exactly when the node has neither failed nor been
      cancelled: a failed node with a falsy error reports null, not `false`. */
  lemma ErrorFalseUnlessFailed(n: Option<Node>)
    ensures var p := GetAsyncProperties(n);
            p.error == Bool(false) <==> !(p.status.error || p.status.cancel)
  {
  }
}

=== FILE: get_getter_async_props.dfy ===
/**
 * Props for a connected component: each key of a getter selects a node from
 * the store state, the node becomes its props record, and a prop the component
 * already has under that key is kept next to it.
 */
module GetterAsyncProps {
  import opened JsValues
  import opened Utils
  import opened AsyncProps

  /** A connected prop: the props record alone, or fused with the component's own prop. */
  datatype Fused = Connected(connected: Props) | WithOwn(own: Value, connected: Props)

  /** `fuseProps(own, connected)`: only an `undefined` own prop is dropped. */
  function FuseProps(own: Value, connected: Props): (r: Fused)
    ensures r.Connected? <==> own == Undefined
    ensures r.connected == connected
    ensures r.WithOwn? ==> r.own == own
  {
    if own != Undefined then WithOwn(own, connected) else Connected(connected)
  }

  /** A getter property: a selector from the store state to a node (None for a missing
      node), or a value that is not a function. */
  datatype GetterMember<!St> = Selector(select: St -> Option<Node>) | NotCallable(v: Value)

  /** The `getter` prop: a non-null object written as its property assignments, or any
      other value, of which only an `asyncProp` property can matter (a function may carry one). */
  datatype Getter<!St> =
    | GetterObject(entries: Entries<GetterMember<St>>)
    | NonObject(asyncProp: Option<GetterMember<St>>)

  /** `getAsyncKeys(getter)`: the own keys of an object getter, else the single key `asyncProp`. */
  function GetAsyncKeys<St>(getter: Getter<St>): (keys: seq<string>)
    ensures Distinct(keys)
    ensures getter.GetterObject? ==> forall k :: k in keys <==> k in Names(getter.entries)
    ensures getter.NonObject? ==> keys == ["asyncProp"]
  {
    match getter
    case GetterObject(es) => Keys(es)
    case NonObject(_) => ["asyncProp"]
  }

  /** `getter[key]`: None when the property is absent. */
  function MemberAt<St>(getter: Getter<St>, key: string): Option<GetterMember<St>> {
    match getter
    case GetterObject(es) => Lookup(es, key)
    case NonObject(p) => if key == "asyncProp" then p else None
  }

  /** `getter[key](state)` throws for a key whose property is missing or not a function. */
  predicate Callable<St>(getter: Getter<St>, key: string) {
    MemberAt(getter, key).Some? && MemberAt(getter, key).value.Selector?
  }

  /** The fused props under `key`, for a key whose property is a selector. */
  function PropFor<St>(state: St, props: map<string, Value>, getter: Getter<St>, key: string): Fused
    requires Callable(getter, key)
  {
    var own := if key in props then props[key] else Undefined;
    FuseProps(own, GetAsyncProperties(MemberAt(getter, key).value.select(state)))
  }

  /** Every key in `keys` names a callable property. */
  predicate AllCallable<St>(getter: Getter<St>, keys: seq<string>) {
    forall i :: 0 <= i < |keys| ==> Callable(getter, keys[i])
  }

  /** `key` is the first key of `keys` whose property cannot be called. */
  predicate FirstUncallable<St>(getter: Getter<St>, keys: seq<string>, key: string) {
    exists i :: 0 <= i < |keys| && keys[i] == key && !Callable(getter, key) && AllCallable(getter, keys[..i])
  }

  /** The `forEach` over `keys`: it throws the `TypeError` at the first key whose property
      cannot be called, named here by that key; otherwise every key gets its fused props. */
  function FuseAll<St>(state: St, props: map<string, Value>, getter: Getter<St>, keys: seq<string>)
    : (r: Result<Entries<Fused>, string>)
    ensures r.Success? <==> AllCallable(getter, keys)
    ensures r.Success? ==> Names(r.value) == keys
    ensures r.Success? ==> forall i :: 0 <= i < |keys| ==> r.value[i].1 == PropFor(state, props, getter, keys[i])
    ensures r.Failure? ==> FirstUncallable(getter, keys, r.error)
  {
    if AllCallable(getter, keys) then Success(FuseEach(state, props, getter, keys))
    else Failure(FirstUncallableKey(getter, keys))
  }

  /** The `forEach` when no call throws: each key in turn assigned its fused props. */
  function FuseEach<St>(state: St, props: map<string, Value>, getter: Getter<St>, keys: seq<string>)
    : (r: Entries<Fused>)
    requires AllCallable(getter, keys)
    ensures Names(r) == keys
    ensures forall i :: 0 <= i < |keys| ==> r[i].1 == PropFor(state, props, getter, keys[i])
  {
    var r := seq(|keys|, i requires 0 <= i < |keys| => (keys[i], PropFor(state, props, getter, keys[i])));
    assert Names(r) == keys;
    r
  }

  /** The key at which the `forEach` throws when some call does. */
  function FirstUncallableKey<St>(getter: Getter<St>, keys: seq<string>): (key: string)
    requires !AllCallable(getter, keys)
    ensures FirstUncallable(getter, keys, key)
  {
    if !Callable(getter, keys[0]) then
      assert AllCallable(getter, keys[..0]);
      keys[0]
    else
      CallableCons(getter, keys);
      var key := FirstUncallableKey(getter, keys[1..]);
      UncallableAfterHead(getter, keys, key);
      key
  }

  /** All keys are callable exactly when the first one and all the later ones are. */
  lemma CallableCons<St>(getter: Getter<St>, keys: seq<string>)
    requires |keys| > 0
    ensures AllCallable(getter, keys) <==> Callable(getter, keys[0]) && AllCallable(getter, keys[1..])
  {
    assert forall i :: 0 < i < |keys| ==> keys[i] == keys[1..][i - 1];
  }

  /** The first uncallable key after a callable head is the first uncallable key overall. */
  lemma UncallableAfterHead<St>(getter: Getter<St>, keys: seq<string>, key: string)
    requires |keys| > 0 && Callable(getter, keys[0])
    requires FirstUncallable(getter, keys[1..], key)
    ensures FirstUncallable(getter, keys, key)
  {
    var i :| 0 <= i < |keys[1..]| && keys[1..][i] == key && !Callable(getter, key) && AllCallable(getter, keys[1..][..i]);
    assert keys[..i + 1] == [keys[0]] + keys[1..][..i];
    assert keys[i + 1] == key;
  }

  /** `getGetterAsyncProps(state, props)`, with `props.getter` passed as `getter`. */
  function GetGetterAsyncProps<St>(state: St, props: map<string, Value>, getter: Getter<St>)
    : (r: Result<Entries<Fused>, string>)
    ensures r.Success? <==> forall k :: k in GetAsyncKeys(getter) ==> Callable(getter, k)
    ensures r.Failure? ==> FirstUncallable(getter, GetAsyncKeys(getter), r.error)
    ensures r.Success? ==> Names(r.value) == GetAsyncKeys(getter) && Keys(r.value) == GetAsyncKeys(getter)
    ensures r.Success? ==> forall i :: 0 <= i < |r.value| ==> r.value[i].1 == PropFor(state, props, getter, r.value[i].0)
  {
    var r := FuseAll(state, props, getter, GetAsyncKeys(getter));
    assert r.Success? ==> Names(r.value) == GetAsyncKeys(getter);
    r
  }

  /** Each key of the result holds the getter's node for that key as props, fused with the
      component's own prop under the same key. */
  lemma GetterPropsAt<St>(state: St, props: map<string, Value>, getter: Getter<St>, key: string)
    requires AllCallable(getter, GetAsyncKeys(getter))
    requires key in GetAsyncKeys(getter)
    ensures GetGetterAsyncProps(state, props, getter).Success?
    ensures Lookup(GetGetterAsyncProps(state, props, getter).value, key) == Some(PropFor(state, props, getter, key))
  {
    var keys := GetAsyncKeys(getter);
    var r := GetGetterAsyncProps(state, props, getter).value;
    var i :| 0 <= i < |keys| && keys[i] == key;
    assert r[i].0 == key;
    LookupDistinct(r, i);
  }

  /** An empty getter object connects nothing. */
  lemma EmptyGetterEmptyProps<St>(state: St, props: map<string, Value>)
    ensures GetGetterAsyncProps(state, props, GetterObject([])) == Success([])
  {
  }

  /** A getter that is not an object and has no `asyncProp` property (a plain function, or
      none at all) is still read under the key `asyncProp`, so the call throws there. */
  lemma NonObjectGetterThrows<St>(state: St, props: map<string, Value>)
    ensures GetGetterAsyncProps(state, props, Getter<St>.NonObject(None)) == Failure("asyncProp")
  {
  }
}

=== FILE: lifecycle.dfy ===
/**
 * The write side and the read side together: what a component sees after each
 * stage's transition, and the library's documented usage scenarios.
 */
module Lifecycle {
  import opened JsValues
  import opened Utils
  import opened AsyncActionSets
  import opened AsyncReducer
  import opened AsyncProps

  /** The flags each stage leaves behind, whatever the hooks: start and progress read as
      loading, done as done, error as done with an error, cancel as cancelled, and reset
      as nothing at all. */
  lemma StageFlags(s: Stage, initialPayload: Value, payloadHooks: HookMap, errorHooks: HookMap, n: Node, a: Action)
    ensures var st := GetAsyncStatus(Some(StageResult(s, initialPayload, payloadHooks, errorHooks, n, a)));
            st == match s
                  case Start => Status(true, false, false, false)
                  case Progress => Status(true, false, false, false)
                  case Done => Status(false, true, false, false)
                  case Error => Status(false, true, false, true)
                  case Cancel => Status(false, false, true, false)
                  case Reset => Status(false, false, false, false)
  {
  }

  /** An error-handler argument that contributes no hooks: omitted, or `{}`. */
  predicate NoErrorHooks(errorHandlers: Handler) {
    FormatHandler(ErrorArgument(errorHandlers)) == Success([])
  }

  /** Omitting the error handlers, or passing `{}`, contributes no error hooks. */
  lemma NoErrorHooksWhenOmitted()
    ensures NoErrorHooks(Prim(Undefined)) && NoErrorHooks(Object([]))
  {
    OmittedErrorHandlers();
  }

  /** The reducer built from one bare action set. */
  function SetReducer(k: string, initialPayload: Value, errorHandlers: Handler): Result<Reducer<Node>, ConfigError> {
    CreateAsyncReducer(initialPayload, ActionSet(CreateAsyncActions(k)), errorHandlers)
  }

  /** Dispatching stage `s` of a bare set's actions runs the hook-free transition of the
      stage on the given state, or on the initial state when none is given. */
  lemma SetReducerStage(k: string, initialPayload: Value, errorHandlers: Handler, s: Stage,
                        state: Option<Node>, payload: Value)
    requires NoErrorHooks(errorHandlers)
    ensures SetReducer(k, initialPayload, errorHandlers).Success?
    ensures var action := CreateAsyncActions(k).Member(s).Call(payload);
            Dispatch(SetReducer(k, initialPayload, errorHandlers).value, state, Some(action))
            == StageResult(s, initialPayload, map[], map[],
                           state.GetOr(Node(INITIAL, Default(initialPayload, Null), Null)), action)
  {
    var payloadHandlers := ActionSet(CreateAsyncActions(k));
    assert FormatHandler(payloadHandlers) == Success([(k, map[])]);
    OneKeyStage(initialPayload, payloadHandlers, errorHandlers, k, map[], s, state, payload);
    assert SetReducer(k, initialPayload, errorHandlers) == CreateAsyncReducer(initialPayload, payloadHandlers, errorHandlers);
  }

  /** Whatever the payload handler argument is, once it formats to one store key with its
      hooks, dispatching stage `s` of that key runs the stage's transition with those hooks. */
  lemma OneKeyStage(initialPayload: Value, payloadHandlers: Handler, errorHandlers: Handler,
                    k: string, hooks: HookMap, s: Stage, state: Option<Node>, payload: Value)
    requires FormatHandler(payloadHandlers) == Success([(k, hooks)])
    requires NoErrorHooks(errorHandlers)
    ensures CreateAsyncReducer(initialPayload, payloadHandlers, errorHandlers).Success?
    ensures var action := CreateAsyncActions(k).Member(s).Call(payload);
            Dispatch(CreateAsyncReducer(initialPayload, payloadHandlers, errorHandlers).value, state, Some(action))
            == StageResult(s, initialPayload, hooks, map[],
                           state.GetOr(Node(INITIAL, Default(initialPayload, Null), Null)), action)
  {
    SingleKeyReducer(initialPayload, payloadHandlers, errorHandlers, k, hooks);
    ReducerDispatchesStage(initialPayload, payloadHandlers, errorHandlers, k, s, state, payload);
  }

  /** Starting a fresh operation gives the started node with no payload and no error. */
  lemma ScenarioStart(k: string, errorHandlers: Handler)
    requires NoErrorHooks(errorHandlers)
    ensures SetReducer(k, Null, errorHandlers).Success?
    ensures Dispatch(SetReducer(k, Null, errorHandlers).value, None,
                     Some(CreateAsyncActions(k).Member(Start).Call(Undefined)))
            == Node(STARTED, Null, Null)
  {
    SetReducerStage(k, Null, errorHandlers, Start, None, Undefined);
  }

  /** Finishing with a truthy payload gives the done node with that payload and no error,
      which reads as done, with that payload and, the node not having failed, the error `false`. */
  lemma ScenarioDone(k: string, errorHandlers: Handler, x: Value)
    requires NoErrorHooks(errorHandlers) && Truthy(x)
    ensures SetReducer(k, Null, errorHandlers).Success?
    ensures var n := Dispatch(SetReducer(k, Null, errorHandlers).value, None,
                              Some(CreateAsyncActions(k).Member(Done).Call(x)));
            && n == Node(DONE, x, Null)
            && IsDone(Some(n)) && !HasError(Some(n)) && GetPayload(Some(n)) == x && GetError(Some(n)) == Bool(false)
  {
    SetReducerStage(k, Null, errorHandlers, Done, None, x);
  }

  /** Failing with a truthy payload reads as an error, with a null payload and that error. */
  lemma ScenarioError(k: string, errorHandlers: Handler, e: Value)
    requires NoErrorHooks(errorHandlers) && Truthy(e)
    ensures SetReducer(k, Null, errorHandlers).Success?
    ensures var n := Dispatch(SetReducer(k, Null, errorHandlers).value, None,
                              Some(CreateAsyncActions(k).Member(Error).Call(e)));
            && n == Node(ERROR, Null, e)
            && HasError(Some(n)) && IsDone(Some(n)) && GetPayload(Some(n)) == Null && GetError(Some(n)) == e
  {
    SetReducerStage(k, Null, errorHandlers, Error, None, e);
  }

  /** Resetting any state of a reducer built with a null initial payload gives the
      all-null node. */
  lemma ResetClearsEverything(k: string, errorHandlers: Handler, n: Node)
    requires NoErrorHooks(errorHandlers)
    ensures SetReducer(k, Null, errorHandlers).Success?
    ensures Dispatch(SetReducer(k, Null, errorHandlers).value, Some(n),
                     Some(CreateAsyncActions(k).Member(Reset).Call(Undefined)))
            == Node(INITIAL, Null, Null)
  {
    SetReducerStage(k, Null, errorHandlers, Reset, Some(n), Undefined);
  }

  /** Resetting after a finished operation restores the initial payload (here null) and does
      not keep the finished payload. */
  lemma ScenarioResetAfterDone(k: string, errorHandlers: Handler, x: Value)
    requires NoErrorHooks(errorHandlers)
    ensures SetReducer(k, Null, errorHandlers).Success?
    ensures var reducer := SetReducer(k, Null, errorHandlers).value;
            var done := Dispatch(reducer, None, Some(CreateAsyncActions(k).Member(Done).Call(x)));
            Dispatch(reducer, Some(done), Some(CreateAsyncActions(k).Member(Reset).Call(Undefined)))
            == Node(INITIAL, Null, Null)
  {
    var reducer := SetReducer(k, Null, errorHandlers).value;
    var done := Dispatch(reducer, None, Some(CreateAsyncActions(k).Member(Done).Call(x)));
    ResetClearsEverything(k, errorHandlers, done);
  }

  /** The recorded hooks of a configuration with the one hook `hook` under `name`. */
  function OneHook(name: string, hook: Hook): HookMap {
    map[name := hook]
  }

  /** `{[stage]: hook}`: a configuration with one hook. */
  function SingleHook(s: Stage, hook: Hook): Entries<Handler> {
    [(StageName(s), Func(hook, []))]
  }

  /** A configuration with one hook under a stage name is valid and records exactly that hook. */
  lemma OneHookConfig(name: string, hook: Hook)
    requires name in AVAILABLE_ACTIONS
    ensures IsValidConfig(Object([(name, Func(hook, []))]))
    ensures HooksOf([(name, Func(hook, []))]) == OneHook(name, hook)
  {
    var es := [(name, Func(hook, []))];
    assert Keys(es) == [name] by {
      assert Names(es) == [name];
    }
    assert Prop(es, name) == Func(hook, []);
  }

  /** A one-hook configuration is valid and records exactly that hook. */
  lemma SingleHookValid(s: Stage, hook: Hook)
    ensures IsValidConfig(Object(SingleHook(s, hook)))
    ensures HooksOf(SingleHook(s, hook)) == OneHook(StageName(s), hook)
  {
    StageNamesListed(s);
    OneHookConfig(StageName(s), hook);
  }

  /** A function is an object too: one carrying a stage hook as an own property is a valid
      configuration, recorded under its property name with that hook. */
  lemma FunctionConfigAccepted(k: string, f: Hook, s: Stage, hook: Hook)
    ensures IsValidConfig(Func(f, SingleHook(s, hook)))
    ensures FormatHandler(Object([(k, Func(f, SingleHook(s, hook)))])) == Success([(k, OneHook(StageName(s), hook))])
  {
    SingleHookValid(s, hook);
    FormatSingleConfig(k, Func(f, SingleHook(s, hook)));
  }

  /** Dispatching stage `s` to the reducer built from `{[k]: {[stage s]: hook}}` runs the
      stage's transition with that hook as the only payload hook. */
  lemma HookedSetStage(k: string, errorHandlers: Handler, s: Stage, hook: Hook, payload: Value)
    requires NoErrorHooks(errorHandlers)
    ensures CreateAsyncReducer(Null, Object([(k, Object(SingleHook(s, hook)))]), errorHandlers).Success?
    ensures var action := CreateAsyncActions(k).Member(s).Call(payload);
            match CreateAsyncReducer(Null, Object([(k, Object(SingleHook(s, hook)))]), errorHandlers)
            case Success(reducer) =>
              Dispatch(reducer, None, Some(action))
              == StageResult(s, Null, OneHook(StageName(s), hook), map[], Node(INITIAL, Null, Null), action)
            case Failure(_) => false
  {
    var config := Object([(k, Object(SingleHook(s, hook)))]);
    var hooks := OneHook(StageName(s), hook);
    assert FormatHandler(config) == Success([(k, hooks)]) by {
      SingleHookValid(s, hook);
      FormatSingleConfig(k, Object(SingleHook(s, hook)));
    }
    OneKeyStage(Null, config, errorHandlers, k, hooks, s, None, payload);
  }

  /** With a configured payload hook, the payload after the stage's first action is what the
      hook computes from the initial null payload and that action. */
  lemma HookedSetPayload(k: string, errorHandlers: Handler, s: Stage, hook: Hook, payload: Value)
    requires NoErrorHooks(errorHandlers)
    ensures CreateAsyncReducer(Null, Object([(k, Object(SingleHook(s, hook)))]), errorHandlers).Success?
    ensures var action := CreateAsyncActions(k).Member(s).Call(payload);
            match CreateAsyncReducer(Null, Object([(k, Object(SingleHook(s, hook)))]), errorHandlers)
            case Success(reducer) => Dispatch(reducer, None, Some(action)).payload == hook(Null, action)
            case Failure(_) => false
  {
    HookedSetStage(k, errorHandlers, s, hook, payload);
  }

  /** A done hook appending "+extra" to a string payload. */
  function Extra(prev: Value, a: Action): Value {
    if a.payload.Str? then Str(a.payload.s + "+extra") else prev
  }

  /** A configured done hook computes the payload: finishing with `x` stores `x` + "+extra". */
  lemma ScenarioDoneHook(k: string, errorHandlers: Handler, x: string)
    requires NoErrorHooks(errorHandlers)
    ensures CreateAsyncReducer(Null, Object([(k, Object(SingleHook(Done, Extra)))]), errorHandlers).Success?
    ensures Dispatch(CreateAsyncReducer(Null, Object([(k, Object(SingleHook(Done, Extra)))]), errorHandlers).value,
                     None, Some(CreateAsyncActions(k).Member(Done).Call(Str(x)))).payload
            == Str(x + "+extra")
  {
    var action := CreateAsyncActions(k).Member(Done).Call(Str(x));
    assert Extra(Null, action) == Str(x + "+extra") by {
      assert action.payload == Str(x);
    }
    HookedSetPayload(k, errorHandlers, Done, Extra, Str(x));
  }

  /** `{a: createAsyncActions(k1), b: createAsyncActions(k2)}`: two action sets in one configuration. */
  function TwoSets(k1: string, k2: string): Handler {
    Object([("a", ActionSet(CreateAsyncActions(k1))), ("b", ActionSet(CreateAsyncActions(k2)))])
  }

  /** Each set is recorded under its store key, with no hooks. */
  lemma TwoSetsFormatted(k1: string, k2: string)
    ensures FormatHandler(TwoSets(k1, k2)) == Success([(k1, map[]), (k2, map[])])
  {
    var es := [("a", ActionSet(CreateAsyncActions(k1))), ("b", ActionSet(CreateAsyncActions(k2)))];
    assert Names(es) == ["a", "b"];
    assert Keys(es) == ["a", "b"];
    assert Prop(es, "a") == ActionSet(CreateAsyncActions(k1));
    assert Prop(es, "b") == ActionSet(CreateAsyncActions(k2));
    var r := FormatMembers(es, ["a", "b"]);
    assert r.Success?;
    assert r.value == [(k1, map[]), (k2, map[])];
  }

  /** Two hook-free keys merge to themselves, in order. */
  lemma TwoKeysMerged(k1: string, k2: string)
    requires k1 != k2
    ensures var fp: Entries<HookMap> := [(k1, map[]), (k2, map[])];
            MergeHandlers(fp, []) == [k1, k2] && HooksAt(fp, k1) == map[] && HooksAt(fp, k2) == map[]
  {
    var fp: Entries<HookMap> := [(k1, map[]), (k2, map[])];
    assert Names(fp) == [k1, k2];
    assert Keys(fp) == [k1, k2];
    assert Keys<HookMap>([]) == [];
    assert Keys(fp) + Keys<HookMap>([]) == [k1, k2];
  }

  /** Two sets with different store keys give a table holding the six types of each, no
      type shared between them, and each set's actions driving its own hook-free transitions. */
  lemma ScenarioTwoSets(k1: string, k2: string, errorHandlers: Handler, s: Stage, n: Node, a: Action)
    requires k1 != k2 && NoErrorHooks(errorHandlers)
    ensures CreateAsyncReducerConfig(Null, TwoSets(k1, k2), errorHandlers).Success?
    ensures CreateAsyncReducerConfig(Null, TwoSets(k1, k2), errorHandlers).value.Keys == TypesOf(k1) + TypesOf(k2)
    ensures TypesOf(k1) * TypesOf(k2) == {}
    ensures var table := CreateAsyncReducerConfig(Null, TwoSets(k1, k2), errorHandlers).value;
            table[TypeOf(s, k1)](n, a) == table[TypeOf(s, k2)](n, a) == StageResult(s, Null, map[], map[], n, a)
  {
    var fp: Entries<HookMap> := [(k1, map[]), (k2, map[])];
    assert FormatHandler(TwoSets(k1, k2)) == Success(fp) by {
      TwoSetsFormatted(k1, k2);
    }
    assert MergeHandlers(fp, []) == [k1, k2] && HooksAt(fp, k1) == map[] && HooksAt(fp, k2) == map[]
           && HooksAt([], k1) == map[] && HooksAt([], k2) == map[] by {
      TwoKeysMerged(k1, k2);
    }
    TypesOfAllTwo(k1, k2);
    TypesOfDisjoint(k1, k2);
    ReducerConfigEntries(Null, TwoSets(k1, k2), errorHandlers, k1, s, n, a);
    ReducerConfigEntries(Null, TwoSets(k1, k2), errorHandlers, k2, s, n, a);
  }
}

=== FILE: utils.dfy ===
/**
 * The shared vocabulary of the library: status constants, defensive property
 * access, the read-side predicates over a state node, the state-node shape,
 * action creators, and the generic dispatch-table reducer.
 */
module Utils {
  import opened JsValues

  /** The status values a node can carry; the not-started status is `null`. */
  const INITIAL: Value := Null
  const STARTED: Value := Str("STARTED")
  const DONE: Value := Str("DONE")
  const ERROR: Value := Str("ERROR")
  const CANCELLED: Value := Str("CANCELLED")

  /** A JS object read through its own properties; an absent property reads as `undefined`. */
  type JsObject = map<string, Value>

  /** `get(object, property, defaultValue)`: `object ? object[property] || defaultValue : defaultValue`,
      with a missing object (`null`/`undefined`) written as None. */
  function Get(o: Option<JsObject>, p: string, d: Value): (r: Value)
    ensures o.None? ==> r == d
    ensures r == d || (o.Some? && p in o.value && r == o.value[p] && Truthy(r))
    ensures o.Some? && p in o.value && Truthy(o.value[p]) ==> r == o.value[p]
  {
    match o
    case None => d
    case Some(obj) => Or(if p in obj then obj[p] else Undefined, d)
  }

  /** The state node of one tracked operation. */
  datatype Node = Node(status: Value, payload: Value, error: Value)

  /** A node seen as the JS object it is; None is a `null`/`undefined` node. */
  function AsObject(n: Option<Node>): (r: Option<JsObject>)
    ensures r.Some? <==> n.Some?
    ensures n.Some? ==> r.value.Keys == {"status", "payload", "error"}
    ensures n.Some? ==> r.value["status"] == n.value.status && r.value["payload"] == n.value.payload
                        && r.value["error"] == n.value.error
  {
    match n
    case None => None
    case Some(node) => Some(map["status" := node.status, "payload" := node.payload, "error" := node.error])
  }

  /** The status a predicate reads: the node's status when truthy, else `undefined`. */
  function StatusOf(n: Option<Node>): Value {
    Get(AsObject(n), "status", Undefined)
  }

  /** True when the node's status is one of the given truthy status strings. */
  predicate HasStatus(n: Option<Node>, s: Value) {
    n.Some? && n.value.status == s
  }

  predicate IsDone(n: Option<Node>)
    ensures IsDone(n) <==> HasStatus(n, DONE) || HasStatus(n, ERROR)
  {
    StatusOf(n) == DONE || StatusOf(n) == ERROR
  }

  /** The error of a failed or cancelled node (null when it has none); `false` otherwise. */
  function GetError(n: Option<Node>): (r: Value)
    ensures !(HasStatus(n, ERROR) || HasStatus(n, CANCELLED)) ==> r == Bool(false)
    ensures HasStatus(n, ERROR) || HasStatus(n, CANCELLED) ==>
              r == (if Truthy(n.value.error) then n.value.error else Null)
  {
    var status := StatusOf(n);
    var failed := Bool(status == ERROR || status == CANCELLED);
    if Truthy(failed) then Get(AsObject(n), "error", Null) else failed
  }

  predicate IsLoading(n: Option<Node>)
    ensures IsLoading(n) <==> HasStatus(n, STARTED)
  {
    StatusOf(n) == STARTED
  }

  predicate IsCancelled(n: Option<Node>)
    ensures IsCancelled(n) <==> HasStatus(n, CANCELLED)
  {
    StatusOf(n) == CANCELLED
  }

  /** Not exported by the module itself but imported by its consumers; taken from the
      bundled build, where it is `status === ERROR`. */
  predicate HasError(n: Option<Node>)
    ensures HasError(n) <==> HasStatus(n, ERROR)
  {
    StatusOf(n) == ERROR
  }

  /** The node's payload when truthy, else null. */
  function GetPayload(n: Option<Node>): (r: Value)
    ensures n.None? ==> r == Null
    ensures n.Some? && Truthy(n.value.payload) ==> r == n.value.payload
    ensures n.Some? && !Truthy(n.value.payload) ==> r == Null
  {
    Get(AsObject(n), "payload", Null)
  }

  /** The predicates never claim two of loading, done and cancelled at once,
      and a missing node satisfies none of them. */
  lemma PredicatesExclusive(n: Option<Node>)
    ensures IsLoading(n) ==> !IsDone(n) && !IsCancelled(n)
    ensures IsCancelled(n) ==> !IsDone(n)
    ensures HasError(n) ==> IsDone(n)
    ensures n.None? ==> !IsLoading(n) && !IsDone(n) && !IsCancelled(n) && !HasError(n)
    ensures n.None? ==> GetError(n) == Bool(false) && GetPayload(n) == Null
  {
  }

  /** `getStateShape(status = INITIAL, payload = null, error = null)`; an omitted argument is `Undefined`. */
  function GetStateShape(status: Value, payload: Value, error: Value): (r: Node)
    ensures status != Undefined ==> r.status == status
    ensures payload != Undefined ==> r.payload == payload
    ensures error != Undefined ==> r.error == error
    ensures status == Undefined ==> r.status == INITIAL
    ensures payload == Undefined ==> r.payload == Null
    ensures error == Undefined ==> r.error == Null
    ensures r.status != Undefined && r.payload != Undefined && r.error != Undefined
  {
    Node(Default(status, INITIAL), Default(payload, Null), Default(error, Null))
  }

  /** With every argument omitted the shape is the all-null node. */
  lemma EmptyStateShape()
    ensures GetStateShape(Undefined, Undefined, Undefined) == Node(Null, Null, Null)
  {
  }

  /** A dispatched action. `type` is None for the `{}` default action, which has no type property. */
  datatype Action = Action(actionType: Option<string>, payload: Value)

  /** The key an action is looked up under in a dispatch table: a missing type
      reads as the string "undefined" when used as a property name. */
  function TypeKey(a: Action): string {
    a.actionType.GetOr("undefined")
  }

  /** An action creator: a function of an optional payload that also carries its type. */
  datatype ActionCreator = ActionCreator(actionType: string) {
    /** Calling the creator; an omitted payload (`Undefined`) defaults to null. */
    function Call(payload: Value): (a: Action)
      ensures a.actionType == Some(actionType)
      ensures payload != Undefined ==> a.payload == payload
      ensures payload == Undefined ==> a.payload == Null
    {
      Action(Some(actionType), Default(payload, Null))
    }

    /** The creator's string form, used as a computed key in dispatch tables. */
    function ToString(): string {
      actionType
    }
  }

  function CreateAction(t: string): (c: ActionCreator)
    ensures c.actionType == t && c.ToString() == t
  {
    ActionCreator(t)
  }


  /** A reducer built by `createReducer(initialState, actionMap)`. */
  datatype Reducer<!S> = Reducer(initialState: S, actionMap: map<string, (S, Action) -> S>)

  function CreateReducer<S>(initialState: S, actionMap: map<string, (S, Action) -> S>): Reducer<S> {
    Reducer(initialState, actionMap)
  }

  /** Calling the reducer; an omitted state is None, an omitted action is None (the `{}` default). */
  function Dispatch<S>(r: Reducer<S>, state: Option<S>, action: Option<Action>): (s': S)
    ensures var s := state.GetOr(r.initialState);
            var a := action.GetOr(Action(None, Undefined));
            (TypeKey(a) !in r.actionMap ==> s' == s) &&
            (TypeKey(a) in r.actionMap ==> s' == r.actionMap[TypeKey(a)](s, a))
  {
    var s := state.GetOr(r.initialState);
    var a := action.GetOr(Action(None, Undefined));
    if TypeKey(a) in r.actionMap then r.actionMap[TypeKey(a)](s, a) else s
  }

  /** An action a creator makes has the creator's string form as its type, so a table
      entry keyed by the creator is the one that runs on it. */
  lemma CreatorKeysItsActions<S>(t: string, p: Value, r: Reducer<S>, state: Option<S>)
    ensures TypeKey(CreateAction(t).Call(p)) == CreateAction(t).ToString()
    ensures var a := CreateAction(t).Call(p);
            CreateAction(t).ToString() in r.actionMap ==>
              Dispatch(r, state, Some(a)) == r.actionMap[CreateAction(t).ToString()](state.GetOr(r.initialState), a)
  {
  }

  /** Dispatch reads only the table entry of the action's own type: replacing or adding
      an entry under any other type changes nothing. */
  lemma DispatchOnlyOwnEntry<S>(r: Reducer<S>, k: string, f: (S, Action) -> S, state: Option<S>, a: Action)
    requires TypeKey(a) != k
    ensures Dispatch(Reducer(r.initialState, r.actionMap[k := f]), state, Some(a)) == Dispatch(r, state, Some(a))
  {
  }

  /** An action whose type the table does not know returns the state it was given, and
      with no state the initial one. */
  lemma DispatchUnknownKeepsState<S>(r: Reducer<S>, state: Option<S>, a: Action)
    requires TypeKey(a) !in r.actionMap
    ensures Dispatch(r, state, Some(a)) == state.GetOr(r.initialState)
  {
  }

  /** Dispatching a sequence of actions in order, starting from `s`. */
  function Run<S>(r: Reducer<S>, s: S, actions: seq<Action>): S
    decreases |actions|
  {
    if |actions| == 0 then s
    else Run(r, Dispatch(r, Some(s), Some(actions[0])), actions[1..])
  }

  /** Actions the table does not know leave any run unchanged. */
  lemma {:induction false} RunUnknownIsIdentity<S>(r: Reducer<S>, s: S, actions: seq<Action>)
    requires forall i :: 0 <= i < |actions| ==> TypeKey(actions[i]) !in r.actionMap
    ensures Run(r, s, actions) == s
  {
    if |actions| > 0 {
      RunUnknownIsIdentity(r, s, actions[1..]);
    }
  }

  /** Successive dispatches compose: running `xs` then `ys` is running `xs + ys`. */
  lemma {:induction false} RunAppend<S>(r: Reducer<S>, s: S, xs: seq<Action>, ys: seq<Action>)
    ensures Run(r, s, xs + ys) == Run(r, Run(r, s, xs), ys)
  {
    if |xs| > 0 {
      assert (xs + ys)[0] == xs[0];
      assert (xs + ys)[1..] == xs[1..] + ys;
      RunAppend(r, Dispatch(r, Some(s), Some(xs[0])), xs[1..], ys);
    } else {
      assert xs + ys == ys;
    }
  }
}

=== FILE: values.dfy ===
/**
 * JavaScript values as the async-state library sees them: the few primitive
 * kinds whose truthiness matters to `||`, plus opaque object references.
 * Also the small Option/Result wrappers the rest of the model uses, and the
 * representation of a plain JS object as the log of its property assignments.
 */
module JsValues {

  /** A JS value. `Ref` stands for any object or function value (always truthy);
      numbers are reals, with `NaN` on its own since it is the one falsy non-zero number. */
  datatype Value =
    | Undefined
    | Null
    | Bool(b: bool)
    | Num(x: real)
    | NaN
    | Str(s: string)
    | Ref(id: nat)

  /** JS truthiness: `undefined`, `null`, `false`, `0`, `-0`, `NaN` and `""` are falsy. */
  predicate Truthy(v: Value) {
    match v
    case Undefined => false
    case Null => false
    case Bool(b) => b
    case Num(x) => x != 0.0
    case NaN => false
    case Str(s) => s != ""
    case Ref(_) => true
  }

  /** The JS expression `a || b`. */
  function Or(a: Value, b: Value): (r: Value)
    ensures Truthy(a) ==> r == a
    ensures !Truthy(a) ==> r == b
    ensures Truthy(r) <==> Truthy(a) || Truthy(b)
  {
    if Truthy(a) then a else b
  }

  /** A default parameter `x = d`: only `undefined` is replaced, `null` is kept. */
  function Default(v: Value, d: Value): (r: Value)
    ensures v != Undefined ==> r == v
    ensures v == Undefined ==> r == d
  {
    if v == Undefined then d else v
  }

  datatype Option<+T> = None | Some(value: T) {
    function GetOr(d: T): T {
      match this
      case Some(v) => v
      case None => d
    }
  }

  datatype Result<+R, +E> = Success(value: R) | Failure(error: E)

  /** Every element of `xs` occurs once. */
  predicate Distinct<T(==)>(xs: seq<T>) {
    forall i, j :: 0 <= i < j < |xs| ==> xs[i] != xs[j]
  }

  /** `[...new Set(xs)]`: the elements of `xs` in order of first occurrence, each once. */
  function Dedupe(xs: seq<string>): (r: seq<string>)
    ensures Distinct(r)
    ensures forall x :: x in r <==> x in xs
    ensures |r| <= |xs|
    ensures Distinct(xs) ==> r == xs
  {
    if |xs| == 0 then []
    else
      var front := Dedupe(xs[..|xs| - 1]);
      var last := xs[|xs| - 1];
      assert xs == xs[..|xs| - 1] + [last];
      if last in front then front else front + [last]
  }

  /** The position of the first occurrence of `x` in `xs`. */
  function FirstIndex(xs: seq<string>, x: string): (i: nat)
    requires x in xs
    ensures i < |xs| && xs[i] == x && x !in xs[..i]
  {
    if xs[0] == x then 0 else 1 + FirstIndex(xs[1..], x)
  }

  /** Dropping the last element keeps the first occurrence of anything still in front. */
  lemma {:induction false} FirstIndexInFront(xs: seq<string>, x: string)
    requires |xs| > 0 && x in xs[..|xs| - 1]
    ensures FirstIndex(xs, x) == FirstIndex(xs[..|xs| - 1], x) < |xs| - 1
  {
    if xs[0] != x {
      assert xs[1..][..|xs| - 2] == xs[..|xs| - 1][1..];
      FirstIndexInFront(xs[1..], x);
    }
  }

  /** `[...new Set(xs)]` lists its elements in the order of their first occurrence in `xs`. */
  lemma {:induction false} DedupeKeepsFirstOccurrenceOrder(xs: seq<string>)
    ensures forall i, j :: 0 <= i < j < |Dedupe(xs)| ==>
              FirstIndex(xs, Dedupe(xs)[i]) < FirstIndex(xs, Dedupe(xs)[j])
  {
    if |xs| > 0 {
      var front := xs[..|xs| - 1];
      var last := xs[|xs| - 1];
      DedupeKeepsFirstOccurrenceOrder(front);
      var r := Dedupe(xs);
      var d := Dedupe(front);
      assert xs == front + [last];
      forall x | x in d
        ensures FirstIndex(xs, x) == FirstIndex(front, x) < |xs| - 1
      {
        FirstIndexInFront(xs, x);
      }
      if last !in d {
        assert r == d + [last];
        assert FirstIndex(xs, last) == |xs| - 1;
      }
    }
  }

  /** In an object whose properties were each assigned once, a lookup finds the assignment. */
  lemma LookupDistinct<T>(es: Entries<T>, i: nat)
    requires i < |es| && Distinct(Names(es))
    ensures Lookup(es, es[i].0) == Some(es[i].1)
  {
    LookupSeesLastAssignment(es, i);
  }

  /** An element of a non-empty sequence other than its last one is in the front. */
  lemma InFront<T>(xs: seq<T>, x: T)
    requires x in xs && x != xs[|xs| - 1]
    ensures x in xs[..|xs| - 1]
  {
    assert xs == xs[..|xs| - 1] + [xs[|xs| - 1]];
  }

  /** A plain JS object written as the sequence of its property assignments,
      `{a: 1, b: 2, a: 3}` being `[("a", 1), ("b", 2), ("a", 3)]`. */
  type Entries<T> = seq<(string, T)>

  /** The assigned property names in assignment order, repetitions included. */
  function Names<T>(es: Entries<T>): (r: seq<string>)
    ensures |r| == |es|
    ensures forall i :: 0 <= i < |es| ==> r[i] == es[i].0
  {
    if |es| == 0 then [] else Names(es[..|es| - 1]) + [es[|es| - 1].0]
  }

  /** `Object.keys`: each property once, at the position of its first assignment. */
  function Keys<T>(es: Entries<T>): seq<string> {
    Dedupe(Names(es))
  }

  /** `o[k]`: the last value assigned to `k`, or None when `k` was never assigned. */
  function Lookup<T>(es: Entries<T>, k: string): (r: Option<T>)
    ensures r.Some? <==> k in Names(es)
    ensures r.Some? ==> exists i :: 0 <= i < |es| && es[i] == (k, r.value)
  {
    if |es| == 0 then None
    else if es[|es| - 1].0 == k then Some(es[|es| - 1].1)
    else Lookup(es[..|es| - 1], k)
  }

  /** A property is found exactly when it is one of the object's keys. */
  lemma KeysAreLookupDomain<T>(es: Entries<T>, k: string)
    ensures k in Keys(es) <==> Lookup(es, k).Some?
  {
  }

  /** The last assignment to a key is the one a lookup sees. */
  lemma {:induction false} LookupSeesLastAssignment<T>(es: Entries<T>, i: nat)
    requires i < |es|
    requires forall j :: i < j < |es| ==> es[j].0 != es[i].0
    ensures Lookup(es, es[i].0) == Some(es[i].1)
  {
    if i < |es| - 1 {
      LookupSeesLastAssignment(es[..|es| - 1], i);
    }
  }
}
